=== FILE: README.md ===
# Leaflet.FGUtils geometry core in Dafny

This project models the geometry core of Leaflet.FGUtils. That core moves
and resizes a Leaflet feature group as one unit. A feature group is a tree
whose leaves are markers, polylines/polygons and circles, and whose inner
nodes are nested feature groups. The project also models the edit handler
from `leaflet.draw.featuregroup.js` that sits on top of the core: its
`_move` and `_resize` gates, `resizeEditFG`, and the undo/redo dispatch
table `fgUndoExtension`.

Everything is a pure function on an immutable tree. Coordinates are
`real`s, and a transform returns a new tree instead of mutating layers.

- `Geometry` (geometry.dfy): points, offsets and Leaflet's `LatLngBounds` as
  `Box`. It covers extending a box, shifting it, padding it (`pad`), and the
  box spanning two corners (`new LatLngBounds(a, b)`).
- `Layers` (layers.dfy): the `Shape` tree. Every node carries its
  `_topOwner` tag. The module also defines the derived bounding box
  (`getBounds`, which is `None` for an empty group) and `getSubLayerCenter`.
  A generic `Everywhere(property, tree)` states the well-formedness
  conditions the operations need.
- `FGMove` (move.dfy): `moveFeatureGroup` and `moveFGSubLayer`, plus a
  reference definition `Translate` and the lemmas linking the two.
- `FGChecks` (checks.dfy): `getDeltaScale`, `checkMoveFeatureGroup`,
  `checkResizeFeatureGroup`, and the two constants.
- `FGResize` (resize.dfy): `resizeFeatureGroup`, `scaleFGSublayer`,
  `findScaledSubCenter`, `scaleLatLngs`, `adjustFGSubBBox` and `setResizeFix`.
- `FGRedimension` (redimension.dfy): `redimensionFeatureGroup` and the
  move-or-resize decision it makes.
- `FGOwnership` (ownership.dfy): `markFGChildren`.
- `FGEditHandler` (edit_handler.dfy): the `_move` and `_resize` gates and
  `resizeEditFG`. The handler state is the group, the move marker's
  position, the stored opposite corner and its index, and the map's
  `maxBounds`.
- `FGUndo` (undo.dfy): `undoMain`, `redoMain`, `undoNested` and `redoNested`.

Three things depend on the map projection. They are fields of an `Env`
value that every operation takes as a parameter:

- a circle's box half-extent for a radius;
- a polyline's or polygon's `getCenter()`;
- the off-centre branch of `findScaledSubCenter`.

`L.stamp` is passed to `MarkFGChildren` as a plain integer.

Some behaviour of the code is reproduced as written:

- **Move drops holes.** Moving a polygon with nested rings translates ring 0
  and writes back only that ring. The lemmas about bounds and round trips
  therefore assume that holes lie inside the outer ring's box
  (`HolesInsideOuter`) or that there are no holes (`NoHoles`).
- **Flat polylines are not scaled.** The resize loop hands each single
  point to `scaleLatLngs`, whose loop then runs zero times.
- **Resize pins the opposite corner.** `setResizeFix` pins the corner
  opposite the index: 0→south-east, 1→south-west, 2→north-west,
  3→north-east.
- **Redimension indices 0 and 1 do not meet the target's corner.**
  `redimensionFeatureGroup` hands over the target's north-east corner with
  index 0 and its north-west corner with index 1. So for those indices the
  result's south-east (or south-west) corner lands on the target's
  north-east (or north-west) corner.

Where the documentation comments and the code disagree, the model follows
the code:

- `checkResizeFeatureGroup` accepts only a scale strictly greater than
  `MinimumResizeRatio`. Its comment says "greater than or equal".
- The check measures scale as a ratio of widths. Its comment speaks of a
  ratio of areas.

## Model

| member | source | states |
|---|---|---|
| FGMove.MoveFeatureGroup | leaflet.fgutils.js:77-86 | Moving to `newCenter` translates the whole tree by one offset: `newCenter` minus the centre of the group's old box. |
| FGMove.MoveFGSubLayer | leaflet.fgutils.js:88-114 | Moving one member by an offset shifts markers and circles and recurses into nested groups with the same offset. A polygon keeps only its translated outer ring, and no radius changes. |
| FGMove.MoveLayers | leaflet.fgutils.js:82-84 | The `eachLayer` loop moves every member by the same offset. |
| FGMove.TranslatePath | leaflet.fgutils.js:101-104 | Every vertex of the ring is shifted by the offset, and the length is kept. |
| FGMove.MoveFeatureGroupCentres | leaflet.fgutils.js:77-86 | When every polygon's holes lie inside its outer ring's box (`HolesInsideOuter`), the group's box after the move is the old box shifted by the move offset, and its centre is exactly `newCenter`. The condition is needed because the move drops the holes (leaflet.fgutils.js:106): a hole reaching outside the outer ring would take part of the old box with it. |
| FGMove.MoveBackRestores | leaflet.fgutils.js:77-86 | For a hole-free group, moving anywhere and then back to the original centre restores every coordinate, radius and tag. |
| FGMove.MovedStaysSolid | leaflet.fgutils.js:96-107 | A moved group has no holes left. Every nested group still has a box, unless a polygon had vertices only in its holes. |
| FGMove.SubLayerCenterFollows | leaflet.fgutils.js:88-91 | For a marker, circle or group, the centre `moveFGSubLayer` computes before moving, shifted by the offset, is the layer's centre after the move. |
| FGMove.TranslateBounds | leaflet.fgutils.js:88-114 | When holes lie inside the outer ring's box, the box of a moved tree is the old box shifted by the offset. |
| FGMove.TranslateBoundsAll | leaflet.fgutils.js:82-84 | The same holds for the joined box of a list of members. |
| FGMove.TranslateKeepsBox | leaflet.fgutils.js:96-107 | Moving never makes a box appear or vanish, and keeps every nested group's box, when outer rings are never empty while holes are not. |
| FGMove.TranslateDropsHoles | leaflet.fgutils.js:106 | After a move no polygon has holes. |
| FGMove.TranslateThen | leaflet.fgutils.js:88-114 | Two moves in a row are one move by the summed offset. |
| FGMove.TranslateNowhere | leaflet.fgutils.js:88-114 | Moving a hole-free tree by a zero offset changes nothing. |
| FGMove.PathBoundsShift | leaflet.fgutils.js:101-104 | The box of a shifted ring is the ring's box shifted by the same offset. |
| Layers.SubLayerCenter | leaflet.fgutils.js:176-185 | The centre is a marker's or circle's position, a group's box centre, or a path's `getCenter()`. For anything but a path it lies in the layer's box. |
| FGChecks.GetDeltaScale | leaflet.fgutils.js:129-131 | The scale is the new box's width divided by the old box's width, even though the code divides west-minus-east by west-minus-east. Heights play no part. |
| FGChecks.CheckMoveFeatureGroup | leaflet.fgutils.js:260-282 | Testing only the shifted NE and SW corners accepts exactly when the whole shifted box lies inside `maxBounds` (inclusive). |
| FGChecks.CheckMoveMatchesMove | leaflet.fgutils.js:260-282 | The check accepts a centre exactly when the group, once moved there, lies inside `maxBounds`. |
| FGChecks.CheckResizeFeatureGroup | leaflet.fgutils.js:116-127 | For a valid target box, the check accepts exactly when all four corners lie in `maxBounds` and the width ratio to the base box (`bbO`, or else the group's box) is strictly above `MinimumResizeRatio`. |
| FGResize.FindScaledSubCenter | leaflet.fgutils.js:214-221 | A member whose centre is the old group centre goes to the new group centre. |
| FGResize.ScaleLatLngs | leaflet.fgutils.js:237-243 | The ring keeps its length. Each vertex keeps its offset from the layer centre, multiplied by `scale`, now measured from the new member centre. So every vertex-to-vertex offset is multiplied by `scale`, and a vertex at the layer centre lands on the new member centre. |
| FGResize.ScaleHoles | leaflet.fgutils.js:195-197 | The loop rewrites each hole in turn and keeps the count. Hole `j` is scaled about `getCenter()` of the path as it stands at its turn: the outer ring and holes before `j` already rewritten, hole `j` and the later holes as they were. |
| FGResize.ScaleNestedPath | leaflet.fgutils.js:193-199 | A nested path keeps its ring count and ring lengths. Outer-ring vertices are placed about the new member centre at `scale` times their offset from the untouched path's `getCenter()`. Hole vertices are placed the same way, but about `getCenter()` of the path as the loop left it. The path keeps or lacks a box as before, and a hole-free path stays hole-free. |
| FGResize.AdjustFGSubBBox | leaflet.fgutils.js:245-258 | The result is a valid box centred exactly on `newSubCenter`, and \|scale\| times as wide and as tall as the member's box. So a nested group is resized by the magnitude of its parent's scale. |
| FGResize.SetResizeFix | leaflet.fgutils.js:145-174 | Without a fixed point nothing changes. With one, the group is moved rigidly by the offset that carries the pinned corner for the index onto the point. |
| FGResize.SetResizeFixPinsCorner | leaflet.fgutils.js:145-174 | After the fix, the pinned corner of the group's box is exactly the point, and the box keeps its width and height. |
| FGResize.ScaleFGSublayer | leaflet.fgutils.js:187-212 | Markers go to the scaled centre. Circles go there with their radius multiplied by `scale`. Flat polylines stay put. A nested path is rewritten ring by ring as `ScaleNestedPath` states. A nested group is resized, with no corner pinned, to its own box adjusted around its new centre. A marker or circle at the old group centre ends at the new one. Every member keeps its kind, tag and box presence, and hole-freeness is kept. |
| FGResize.ScaleLayers | leaflet.fgutils.js:137-139 | The `eachLayer` loop keeps the member count and scales member `i` into exactly `scaleFGSublayer` of member `i`, with the one scale and both boxes. It keeps every nested box and keeps hole-freeness. |
| FGResize.ScaledGroup | leaflet.fgutils.js:134-139 | Member `i` of the result is exactly `scaleFGSublayer` of member `i`, with the width ratio of `bbN` to the group's box and both boxes. The tag and member count are kept, every nested group has a box, and hole-freeness is kept. |
| FGResize.ResizeFeatureGroup | leaflet.fgutils.js:133-143 | With no fixed point the result is the group scaled member by member (`ScaledGroup`). With one, it is that scaled group moved rigidly by the offset that carries its pinned corner onto the point. The tag and member count are kept. |
| FGResize.ResizeKeepsBoxes | leaflet.fgutils.js:133-143 | A resized group keeps a box at every nested group when no corner is pinned or outer rings come first, and a hole-free group stays hole-free. |
| FGResize.ResizePinsCorner | leaflet.fgutils.js:133-174 | For a hole-free group, resizing with a fixed point leaves the pinned corner of the new box exactly on that point. |
| FGResize.ResizeMovesCentredMember | leaflet.fgutils.js:133-143 | With no corner pinned, a marker or circle member sitting on the group's old centre ends on the centre of `bbN`. A circle's radius is multiplied by the width ratio of `bbN` to the old box. |
| FGRedimension.RedimensionPlan | leaflet.fgutils.js:330-364 | It chooses a move to the target's centre exactly when \|scale − 1\| ≤ `RedimensionMoveRatio`. Otherwise index 0, 1 or 2 is chosen exactly when that corner test is the first to match, and 3 is the fallback. The point is the target's NE corner for indices 0 and 3 and its NW corner for 1 and 2. |
| FGRedimension.RedimensionFeatureGroup | leaflet.fgutils.js:330-369 | In move mode the result is the group translated from its box centre to the target's centre, with nothing scaled; only the top box needs width. In resize mode it is `resizeFeatureGroup` to `bbN` with the chosen point and index. |
| FGRedimension.RedimensionMoveCentres | leaflet.fgutils.js:334-336 | In move mode the group ends centred on the target with its own width and height. |
| FGRedimension.RedimensionPinsCorner | leaflet.fgutils.js:337-366 | In resize mode the pinned corner lands on the chosen point. With index 0 that is the result's SE corner on the target's NE corner, with 1 its SW corner on the target's NW corner, with 2 NW on NW, and with 3 NE on NE. |
| FGOwnership.MarkFGChildren | leaflet.fgutils.js:316-328 | The group and every reachable layer carry `idx`, or the stamp when `idx` is absent. Apart from the tags the tree is unchanged. |
| FGOwnership.MarkLayers | leaflet.fgutils.js:321-326 | Every member and every nested member gets the id, and only the tags change. |
| FGOwnership.OwnedUntagDetermines | leaflet.fgutils.js:316-328 | Two trees that agree apart from their tags and carry one id throughout are equal. |
| FGOwnership.MarkOverwrites | leaflet.fgutils.js:316-328 | Marking again overwrites the earlier marking and leaves no trace of it. |
| FGOwnership.MarkIdempotent | leaflet.fgutils.js:316-328 | Marking twice with the same id is the same as marking once. |
| FGEditHandler.Move | leaflet.draw.featuregroup.js:28-60 | An EDITMOVE event fires exactly when there is no `maxBounds` or the moved box stays inside it. Then the group is `moveFeatureGroup` of the old group to `newCenter`, the marker goes to `newCenter`, and the event carries the pre-move centre. On refusal the group is untouched, the marker returns to the group's centre and nothing else changes. |
| FGEditHandler.MoveCentresMarker | leaflet.draw.featuregroup.js:28-60 | Whether the move is accepted or refused, the move marker ends on the centre of the group's box. |
| FGEditHandler.MoveStaysInside | leaflet.draw.featuregroup.js:28-60 | A group inside `maxBounds` is still inside it after `_move`. |
| FGEditHandler.Resize | leaflet.draw.featuregroup.js:63-90 | An EDITRESIZE event fires exactly when there is no `maxBounds` or the resize check accepts the box spanning the dragged and opposite corners. Then the group is `resizeFeatureGroup` to that box about the opposite corner, the marker sits on the new centre, the event carries the pre-resize box, and the rest of the handler is unchanged. On refusal nothing changes. |
| FGEditHandler.ResizeHoldsOppositeCorner | leaflet.draw.featuregroup.js:63-90 | After an accepted resize of a hole-free group, the corner `setResizeFix` pins for the stored index is the stored opposite corner. |
| FGEditHandler.ResizeEditFG | leaflet.draw.featuregroup.js:93-99 | The group is resized without any check, and the move marker sits on the new box's centre. |
| FGEditHandler.ResizedHasBox | leaflet.draw.featuregroup.js:93-97 | The resized group keeps a box, so the move marker's `getBounds().getCenter()` does not throw, whenever no corner is pinned or outer rings come first. |
| FGUndo.ReplayMain | leaflet.draw.featuregroup.js:134-158 | Only `editfg/Resize` and `editfg/Move` are handled. A resize yields exactly `resizeFeatureGroup` of the layer to `bounds` about `corner`, and a move exactly `moveFeatureGroup` of the layer to `center`. Any other type accepts any layer and changes nothing. A resize needs only boxes of non-zero width, whatever corner is pinned. A replay keeps the tag and member count and hole-freeness, and keeps every box when outer rings come first. |
| FGUndo.UndoMain | leaflet.draw.featuregroup.js:134-145 | A resize record resizes to `original.originalBounds` with the original corner and index. A move record moves to `original.originalCenter`. Unknown types accept any layer, return false and change nothing. |
| FGUndo.RedoMain | leaflet.draw.featuregroup.js:147-158 | A resize record resizes to `newBounds` with the recorded corner and index. A move record moves to `newCenter`. Unknown types accept any layer, return false and change nothing. |
| FGUndo.ReplayNested | leaflet.draw.featuregroup.js:160-188 | A move goes through `_move`: the handler and the fired event are exactly those `_move` gives, an event fires exactly when the gate accepts, and `eventBlock` rises by exactly one. A resize gives exactly the handler `resizeEditFG` gives, fires nothing, leaves `eventBlock` alone and re-centres the marker. Unknown types accept any handler and change nothing. |
| FGUndo.UndoNested | leaflet.draw.featuregroup.js:160-173 | It handles the same types as `undoMain`, and only a move raises `eventBlock`. A move yields the handler and event `_move` gives for `original.originalCenter`, and a resize the handler `resizeEditFG` gives for the original box and corner. A resize gives the same group as `undoMain`, and so does a move when there is no `maxBounds`. |
| FGUndo.RedoNested | leaflet.draw.featuregroup.js:175-188 | It handles the same types as `redoMain`, and only a move raises `eventBlock`. A move yields the handler and event `_move` gives for `newCenter`, and a resize the handler `resizeEditFG` gives for `newBounds` and the recorded corner. A resize gives the same group as `redoMain`, and so does a move when there is no `maxBounds`. |
| FGUndo.MoveRoundTrip | leaflet.draw.featuregroup.js:139-154 | For a hole-free group, redo then undo of a move record restores the group, and so does undo then redo. |
| FGUndo.UndoAcceptedMove | leaflet.draw.featuregroup.js:28-60 | Undoing an accepted `_move` with the centre its event recorded gives back the hole-free group the handler had. |
| FGUndo.UndoResizePinsCorner | leaflet.draw.featuregroup.js:134-138 | Undoing a resize of a hole-free group about a recorded corner leaves that corner of the group's box on the recorded point. |

## Left out

- Trigonometry in `findScaledSubCenter` (leaflet.fgutils.js:223-234): it is floating point mixed with a geodesic distance in metres. It is the uninterpreted `env.offCentre`. Only the equal-centre case is pinned.
- Projection-dependent Leaflet calls: a polyline's or polygon's `getCenter()` and a circle's box. Both are `Env` parameters. A circle's box is centred on the circle and spans a reach given by its radius.
- A circle's box depends only on its radius (`env.circleReach`). In Leaflet on an Earth CRS the box's longitude half-width grows with latitude (`Circle._project`), so moving a circle north or south changes the width of its box. The exact box shift of a move relies on this abstraction, and so does everything that depends on that shift: FGMove.TranslateBounds, FGMove.TranslateBoundsAll, FGMove.MoveFeatureGroupCentres, FGMove.MoveBackRestores, FGChecks.CheckMoveMatchesMove, FGEditHandler.MoveCentresMarker, FGEditHandler.MoveStaysInside, FGResize.SetResizeFixPinsCorner, FGResize.ResizePinsCorner, FGRedimension.RedimensionMoveCentres and FGRedimension.RedimensionPinsCorner. In Leaflet, `checkMoveFeatureGroup` tests the old box shifted (leaflet.fgutils.js:260-282). A group with a circle on its east or west edge can therefore pass that check and still end outside `maxBounds`.
- `env.pathCenter` is total. Leaflet's `getCenter()` on a polyline or polygon with no vertices returns nothing or throws. Then `getSubLayerCenter(layer).clone()` (leaflet.fgutils.js:89) and `centerP.equals` (leaflet.fgutils.js:219) throw for any group holding such a path, where FGMove.MoveFeatureGroup and FGResize.ResizeFeatureGroup return a tree.
- `LatLng.equals` uses a tolerance of 1e-9. The model compares coordinates exactly.
- IEEE arithmetic: division by zero, infinities and NaN are not modelled. Every operation that computes `getDeltaScale` requires an old box of non-zero width (`Resizable`). That includes a nested group whose box is a single point, such as one holding a single marker. There the code computes 0/0 (NaN) as the nested scale and never uses it, because that marker sits on the nested group's centre (leaflet.fgutils.js:219-221).
- FGResize.ResizeFeatureGroup: requires every reachable group, not only the top one, to have a box of non-zero width, for the reason above.
- Floating-point rounding in the redimension corner tests (leaflet.fgutils.js:348, 356) is not modelled. The code compares `left + width` and `top - height` with the old box's edges as doubles, and the model compares them exactly. For example, west −5.4677 and east 7.5098 give `left + width` = 7.509799999999999, so the code can skip index 0 where the model picks it.
- Vertex aliasing is not modelled. Vertices are values here, but the code mutates the `LatLng` objects in place (leaflet.fgutils.js:102-103, 240-241). A vertex object shared between layers, or repeated within one, is shifted or scaled once per occurrence. The `.clone()` calls in the demo (leaflet.fgutils.js:406-419) guard against exactly this.
- `env.pathCenter` is a function of the path's latlngs, so each ring is scaled about the centre of the path as the loop has left it. A Leaflet whose `getCenter()` reads the projected rings cached at the last redraw would, within one call, give the untouched path's centre for every ring, because `setLatLngs` refreshes the cache only after the loop (leaflet.fgutils.js:198). That variant is not modelled.
- Empty groups: their `getBounds()` has no centre. Move and resize require every reachable group to have a box (`Solid`, `Resizable`).
- Unknown layer types (the `throw` in `scaleFGSublayer`) cannot occur, because `Shape` is closed.
- Multi-polygons (triply nested latlngs) are not modelled. A path is either flat or a list of rings.
- `L.LatLngUtil.makeBounds` is not part of this model. It is taken to be the box spanned by its two corner points.
- Styling is left out: `setStyle`, `getFGOptions` and `applyFGOptions` (leaflet.fgutils.js:284-314, 371-397).
- The demo `resizeFeatureGroup_Quicktest` needs `map.unproject` and is left out.
- UI and event plumbing is left out: `fire('move')`/`fire('edit')`, `_repositionCornerMarkers`, `_moveMarker.update`, `_onMarkerDragStart`, the `addInitHook` bookkeeping and the snap extension.
- The commented-out undo block in leaflet.draw.featuregroup.js is left out.
- The undo manager itself, including `_getEditHandler`, is not part of this model. The nested entries take the handler of `params.layer` as a parameter.
- FGEditHandler.Resize: the throw of `getBounds().getCenter()` on an empty box (leaflet.draw.featuregroup.js:78) is not modelled. Instead an accepted resize requires the resized group to keep a box (`ResizedHasBox`). That is exactly the case in which the code does not throw. A group can lose its box only when a pinned corner makes `setResizeFix` move it, because the move drops the holes, and a polygon may have vertices only in its holes.
- FGEditHandler.ResizeEditFG: likewise requires the resized group to keep a box (`ResizedHasBox`), because `getBounds().getCenter()` at leaflet.draw.featuregroup.js:96 throws on an empty box. That throw is not modelled.
- FGUndo.ReplayNested, FGUndo.UndoNested and FGUndo.RedoNested: a resize requires the resized group to keep a box (`ResizedHasBox`, through `NestedReplayable`), because they go through `resizeEditFG`. The `Main` entries make no such demand.
- FGResize.ScaleNestedPath: keeping every ring's length ignores `setLatLngs` on a Polygon (leaflet.fgutils.js:198). Leaflet's `Polygon._convertLatLngs` drops a ring's last vertex when it equals the first within 1e-9. At scale 0, which a target box of zero width gives, every vertex of a ring collapses onto the new member centre, so each polygon ring of two or more vertices loses one vertex. The same happens when a tiny scale brings the first and last vertex within 1e-9. The model keeps them; the `setLatLngs` clean-up is not modelled.
- FGResize.ResizePinsCorner: is proved only for groups without holes. With holes, the corner pinned by `setResizeFix` is measured on the box before `moveFeatureGroup` drops the holes.
- FGRedimension.RedimensionPinsCorner: is proved only for groups without holes, for the same reason. No claim is made that redimension yields exactly `bbN`; the index 0 and 1 corner mismatch rules that out.
- FGResize.FindScaledSubCenter: states only the equal-centre case, because the other case is abstract.

=== FILE: checks.dfy ===
/** The admissibility tests of leaflet.fgutils.js: `getDeltaScale`,
    `checkMoveFeatureGroup` and `checkResizeFeatureGroup`, all pure box
    arithmetic against an outer `maxBounds`. */
module FGChecks {
  import opened Geometry
  import opened Layers
  import opened FGMove

  /** `L.FGUtils.RedimensionMoveRatio`. */
  const RedimensionMoveRatio: real := 0.01
  /** `L.FGUtils.MinimumResizeRatio`. */
  const MinimumResizeRatio: real := 0.1

  /** `getDeltaScale`: the library divides (west - east) by (west - east);
      that is the ratio of the new box's width to the old box's. Heights
      play no part. */
  function GetDeltaScale(bbO: Box, bbN: Box): (scale: real)
    requires Width(bbO) != 0.0
    ensures scale * Width(bbO) == Width(bbN)
    ensures scale == Width(bbN) / Width(bbO)
  {
    NegatedQuotient(Width(bbN), Width(bbO));
    (bbN.west - bbN.east) / (bbO.west - bbO.east)
  }

  /** `checkMoveFeatureGroup`: shift the NE and SW corners of the group's box
      by the move offset and test each against `maxBounds`. Because the box
      is valid this is the same as asking whether the whole shifted box lies
      inside `maxBounds`. */
  function CheckMoveFeatureGroup(env: Env, fg: Shape, newCenter: LatLng, maxBounds: Box): (ok: bool)
    requires fg.Group? && Bounds(env, fg).Some?
    ensures var bb := Bounds(env, fg).value;
      ok <==> Encloses(maxBounds, ShiftBox(bb, Between(Center(bb), newCenter)))
  {
    var bb := Bounds(env, fg).value;
    var move := Between(Center(bb), newCenter);
    var bbNE := Shift(NorthEast(bb), move);
    var bbSW := Shift(SouthWest(bb), move);
    if !Contains(maxBounds, bbNE) then false
    else if !Contains(maxBounds, bbSW) then false
    else true
  }

  /** The box `checkResizeFeatureGroup` measures the scale against: the one
      passed in, or else the group's own. */
  function ResizeBase(env: Env, fg: Shape, bbO: Option<Box>): Box
    requires bbO.Some? || Bounds(env, fg).Some?
  {
    if bbO.Some? then bbO.value else Bounds(env, fg).value
  }

  /** `checkResizeFeatureGroup`: all four corners of the new box inside
      `maxBounds`, and the scale strictly above `MinimumResizeRatio` (a
      scale of exactly the minimum is refused). */
  function CheckResizeFeatureGroup(env: Env, fg: Shape, bbO: Option<Box>, bbN: Box, maxBounds: Box): (ok: bool)
    requires bbO.Some? || Bounds(env, fg).Some?
    requires Width(ResizeBase(env, fg, bbO)) != 0.0
    ensures ok ==> GetDeltaScale(ResizeBase(env, fg, bbO), bbN) > MinimumResizeRatio
    ensures Valid(bbN) ==>
      (ok <==> Encloses(maxBounds, bbN) && Width(bbN) / Width(ResizeBase(env, fg, bbO)) > MinimumResizeRatio)
  {
    var base := ResizeBase(env, fg, bbO);
    if Contains(maxBounds, NorthWest(bbN)) && Contains(maxBounds, NorthEast(bbN))
       && Contains(maxBounds, SouthWest(bbN)) && Contains(maxBounds, SouthEast(bbN))
    then
      var deltaSize := GetDeltaScale(base, bbN);
      deltaSize > MinimumResizeRatio
    else
      false
  }

  /** `checkMoveFeatureGroup` accepts a centre exactly when the group, once
      moved there, lies entirely inside `maxBounds`. */
  lemma CheckMoveMatchesMove(env: Env, fg: Shape, newCenter: LatLng, maxBounds: Box)
    requires fg.Group? && Solid(env, fg) && Everywhere(env, HolesInsideOuter, fg)
    ensures Bounds(env, MoveFeatureGroup(env, fg, newCenter)).Some?
    ensures CheckMoveFeatureGroup(env, fg, newCenter, maxBounds)
      <==> Encloses(maxBounds, Bounds(env, MoveFeatureGroup(env, fg, newCenter)).value)
  {
    MoveFeatureGroupCentres(env, fg, newCenter);
  }
}

=== FILE: edit_handler.dfy ===
/** The edit handler of leaflet.draw.featuregroup.js (`L.Edit.FeatureGroup`):
    the `_move` and `_resize` gates that validate a drag against the map's
    `maxBounds` before transforming the group, and `resizeEditFG`, the
    replay path the undo manager uses. */
module FGEditHandler {
  import opened Geometry
  import opened Layers
  import opened FGMove
  import opened FGChecks
  import opened FGResize

  /** The edit-type tags carried by the events and looked up on undo. */
  const ResizeType: string := "editfg/Resize"
  const MoveType: string := "editfg/Move"

  /** The state of one handler: the group it edits, the position of its move
      marker, the corner held still while a resize marker is dragged (with
      that marker's index), and the map's `maxBounds`, if any. */
  datatype Handler = Handler(
    shape: Shape,
    moveMarker: LatLng,
    oppositeCorner: LatLng,
    oppositeCornerIndex: int,
    maxBounds: Option<Box>)

  /** The payloads of `L.Draw.Event.EDITMOVE` and `L.Draw.Event.EDITRESIZE`. */
  datatype EditEvent =
    | EditMove(layer: Shape, newCenter: LatLng, originalCenter: LatLng)
    | EditResize(layer: Shape, originalBounds: Box, oppositeCorner: LatLng, oppositeCornerIndex: int, newBounds: Box)

  function EditType(e: EditEvent): string {
    match e
    case EditMove(_, _, _) => MoveType
    case EditResize(_, _, _, _, _) => ResizeType
  }

  /** A gate's outcome: the handler afterwards and the event fired, if any. */
  datatype Outcome = Outcome(handler: Handler, event: Option<EditEvent>)

  /** The move marker sits on the centre of the group's box. */
  predicate MarkerCentred(env: Env, h: Handler) {
    Bounds(env, h.shape).Some? && h.moveMarker == Center(Bounds(env, h.shape).value)
  }

  /** Whether `_move` lets the group go to `newCenter`: always without
      `maxBounds`, otherwise when `checkMoveFeatureGroup` agrees. */
  predicate MoveAllowed(env: Env, h: Handler, newCenter: LatLng)
    requires h.shape.Group? && Solid(env, h.shape)
  {
    h.maxBounds.None? || CheckMoveFeatureGroup(env, h.shape, newCenter, h.maxBounds.value)
  }

  /** `_move`. Accepted: the group is moved, the marker follows to
      `newCenter` and an EDITMOVE event records the old and new centres.
      Refused: the group is untouched, the marker snaps back to the group's
      centre and nothing is fired. The corner state is never touched. */
  function Move(env: Env, h: Handler, newCenter: LatLng): (o: Outcome)
    requires h.shape.Group? && Solid(env, h.shape)
    ensures o.event.Some? <==>
      (h.maxBounds.None? || Encloses(h.maxBounds.value,
        ShiftBox(Bounds(env, h.shape).value, Between(Center(Bounds(env, h.shape).value), newCenter))))
    ensures o.event.Some? ==>
      o.handler.shape == MoveFeatureGroup(env, h.shape, newCenter)
      && o.handler.moveMarker == newCenter
      && o.event.value == EditMove(o.handler.shape, newCenter, Center(Bounds(env, h.shape).value))
      && EditType(o.event.value) == MoveType
    ensures o.event.None? ==>
      o.handler.shape == h.shape && o.handler == h.(moveMarker := Center(Bounds(env, h.shape).value))
    ensures o.handler.maxBounds == h.maxBounds && o.handler.oppositeCorner == h.oppositeCorner
      && o.handler.oppositeCornerIndex == h.oppositeCornerIndex
  {
    var originalCenter := Center(Bounds(env, h.shape).value);
    if MoveAllowed(env, h, newCenter) then
      var moved := MoveFeatureGroup(env, h.shape, newCenter);
      Outcome(h.(shape := moved, moveMarker := newCenter), Some(EditMove(moved, newCenter, originalCenter)))
    else
      Outcome(h.(moveMarker := originalCenter), None)
  }

  /** Whether the group resized to `bbN` about `corner` still has a box.
      Both `_resize` and `resizeEditFG` read the centre of that box for the
      move marker, and `getCenter()` of an empty box throws. Without a
      pinned corner, or with outer rings first, it always does. */
  predicate ResizedHasBox(env: Env, fg: Shape, bbN: Box, corner: Option<LatLng>, cornerIndex: int)
    requires fg.Group? && Resizable(env, fg)
    ensures corner.None? || Everywhere(env, OuterRingsFirst, fg) ==> ResizedHasBox(env, fg, bbN, corner, cornerIndex)
  {
    ResizeKeepsBoxes(env, fg, bbN, corner, cornerIndex);
    Bounds(env, ResizeFeatureGroup(env, fg, bbN, corner, cornerIndex)).Some?
  }

  /** Whether `_resize` goes ahead: always without `maxBounds`, otherwise
      when `checkResizeFeatureGroup` accepts the box spanning the dragged
      and opposite corners. */
  predicate ResizeAllowed(env: Env, h: Handler, latlng: LatLng)
    requires h.shape.Group? && Resizable(env, h.shape)
  {
    h.maxBounds.None?
    || CheckResizeFeatureGroup(env, h.shape, Some(Bounds(env, h.shape).value), Spanning(latlng, h.oppositeCorner), h.maxBounds.value)
  }

  /** `_resize`. The target box spans the dragged corner and the opposite
      corner. With `maxBounds` set and `checkResizeFeatureGroup` refusing,
      nothing changes and nothing is fired. Otherwise the group is resized
      about the opposite corner, the move marker goes to the new centre and
      an EDITRESIZE event records the box from before the resize. */
  function Resize(env: Env, h: Handler, latlng: LatLng): (o: Outcome)
    requires h.shape.Group? && Resizable(env, h.shape)
    requires ResizeAllowed(env, h, latlng) ==>
      ResizedHasBox(env, h.shape, Spanning(latlng, h.oppositeCorner), Some(h.oppositeCorner), h.oppositeCornerIndex)
    ensures var originalBounds := Bounds(env, h.shape).value;
      var newBounds := Spanning(latlng, h.oppositeCorner);
      o.event.Some? <==>
        (h.maxBounds.None? || (Encloses(h.maxBounds.value, newBounds)
          && Width(newBounds) / Width(originalBounds) > MinimumResizeRatio))
    ensures o.event.None? ==> o == Outcome(h, None)
    ensures o.event.Some? ==>
      var resized := ResizeFeatureGroup(env, h.shape, Spanning(latlng, h.oppositeCorner), Some(h.oppositeCorner), h.oppositeCornerIndex);
      MarkerCentred(env, o.handler)
      && o == Outcome(h.(shape := resized, moveMarker := o.handler.moveMarker),
                      Some(EditResize(resized, Bounds(env, h.shape).value, h.oppositeCorner,
                                      h.oppositeCornerIndex, Spanning(latlng, h.oppositeCorner))))
  {
    var originalBounds := Bounds(env, h.shape).value;
    var newBounds := Spanning(latlng, h.oppositeCorner);
    if !ResizeAllowed(env, h, latlng) then
      Outcome(h, None)
    else
      var resized := ResizeFeatureGroup(env, h.shape, newBounds, Some(h.oppositeCorner), h.oppositeCornerIndex);
      var event := EditResize(resized, originalBounds, h.oppositeCorner, h.oppositeCornerIndex, newBounds);
      Outcome(h.(shape := resized, moveMarker := Center(Bounds(env, resized).value)), Some(event))
  }

  /** `L.Edit.FeatureGroup.resizeEditFG`: resize the handler's group without
      any check and re-centre its move marker. */
  function ResizeEditFG(env: Env, h: Handler, bounds: Box, corner: Option<LatLng>, cornerIndex: int): (r: Handler)
    requires h.shape.Group? && Resizable(env, h.shape)
    requires ResizedHasBox(env, h.shape, bounds, corner, cornerIndex)
    ensures r.shape == ResizeFeatureGroup(env, h.shape, bounds, corner, cornerIndex)
    ensures MarkerCentred(env, r)
    ensures r.maxBounds == h.maxBounds && r.oppositeCorner == h.oppositeCorner
      && r.oppositeCornerIndex == h.oppositeCornerIndex
  {
    var resized := ResizeFeatureGroup(env, h.shape, bounds, corner, cornerIndex);
    h.(shape := resized, moveMarker := Center(Bounds(env, resized).value))
  }

  /** Whatever `_move` decides, the move marker ends on the centre of the
      group's box. */
  lemma MoveCentresMarker(env: Env, h: Handler, newCenter: LatLng)
    requires h.shape.Group? && Solid(env, h.shape) && Everywhere(env, HolesInsideOuter, h.shape)
    ensures MarkerCentred(env, Move(env, h, newCenter).handler)
  {
    MoveFeatureGroupCentres(env, h.shape, newCenter);
  }

  /** A group inside `maxBounds` stays inside it through `_move`: an
      accepted move lands inside, a refused one does not move. */
  lemma MoveStaysInside(env: Env, h: Handler, newCenter: LatLng)
    requires h.shape.Group? && Solid(env, h.shape) && Everywhere(env, HolesInsideOuter, h.shape)
    requires h.maxBounds.Some? && Encloses(h.maxBounds.value, Bounds(env, h.shape).value)
    ensures var after := Move(env, h, newCenter).handler.shape;
      Bounds(env, after).Some? && Encloses(h.maxBounds.value, Bounds(env, after).value)
  {
    MoveFeatureGroupCentres(env, h.shape, newCenter);
  }

  /** An accepted `_resize` holds the opposite corner still: for a group
      without holes, the corner of the new box that `setResizeFix` pins for
      the stored index is the stored opposite corner. */
  lemma ResizeHoldsOppositeCorner(env: Env, h: Handler, latlng: LatLng)
    requires h.shape.Group? && Resizable(env, h.shape) && Everywhere(env, NoHoles, h.shape)
    requires Everywhere(env, OuterRingsFirst, h.shape)
    ensures var o := Resize(env, h, latlng);
      o.event.Some? ==>
        Bounds(env, o.handler.shape).Some?
        && PinnedCorner(Bounds(env, o.handler.shape).value, h.oppositeCornerIndex) == h.oppositeCorner
  {
    ResizePinsCorner(env, h.shape, Spanning(latlng, h.oppositeCorner), h.oppositeCorner, h.oppositeCornerIndex);
  }
}

=== FILE: geometry.dfy ===
/** Latitude/longitude points, offsets and axis-aligned bounding boxes.

    These stand in for Leaflet's `LatLng` and `LatLngBounds`. All arithmetic
    is the library's own signed arithmetic on degrees: nothing wraps around
    the antimeridian and nothing is projected. */
module Geometry {

  datatype Option<+T> = None | Some(value: T)

  /** A geographic coordinate. Equality is exact. */
  datatype LatLng = LatLng(lat: real, lng: real)

  /** A displacement in degrees, as the (moveLat, moveLng) pairs of the library. */
  datatype Offset = Offset(dLat: real, dLng: real)

  function Shift(p: LatLng, d: Offset): LatLng {
    LatLng(p.lat + d.dLat, p.lng + d.dLng)
  }

  /** The offset that carries `from` onto `to`. */
  function Between(from: LatLng, to: LatLng): (d: Offset)
    ensures Shift(from, d) == to
  {
    Offset(to.lat - from.lat, to.lng - from.lng)
  }

  function Then(d: Offset, e: Offset): (r: Offset)
    ensures forall p :: Shift(Shift(p, d), e) == Shift(p, r)
  {
    Offset(d.dLat + e.dLat, d.dLng + e.dLng)
  }

  function Negate(d: Offset): (r: Offset)
    ensures forall p :: Shift(Shift(p, d), r) == p
  {
    Offset(-d.dLat, -d.dLng)
  }

  /** The offset multiplied by `k` along both axes. */
  function Stretch(d: Offset, k: real): Offset {
    Offset(d.dLat * k, d.dLng * k)
  }

  function Min(a: real, b: real): real { if a <= b then a else b }
  function Max(a: real, b: real): real { if a <= b then b else a }
  function Abs(x: real): real { if x < 0.0 then -x else x }

  /** A `LatLngBounds`: south-west corner (south, west), north-east corner (north, east). */
  datatype Box = Box(south: real, west: real, north: real, east: real)

  /** Every box built by `LatLngBounds` itself satisfies this. */
  predicate Valid(b: Box) {
    b.south <= b.north && b.west <= b.east
  }

  function Center(b: Box): LatLng {
    LatLng((b.south + b.north) / 2.0, (b.west + b.east) / 2.0)
  }

  function Width(b: Box): real { b.east - b.west }
  function Height(b: Box): real { b.north - b.south }

  function NorthWest(b: Box): LatLng { LatLng(b.north, b.west) }
  function NorthEast(b: Box): LatLng { LatLng(b.north, b.east) }
  function SouthEast(b: Box): LatLng { LatLng(b.south, b.east) }
  function SouthWest(b: Box): LatLng { LatLng(b.south, b.west) }

  /** `LatLngBounds.contains(latlng)`: inclusive on every side. */
  predicate Contains(b: Box, p: LatLng) {
    b.south <= p.lat <= b.north && b.west <= p.lng <= b.east
  }

  /** `LatLngBounds.contains(bounds)`: the inner box lies inside the outer one. */
  predicate Encloses(outer: Box, inner: Box) {
    outer.south <= inner.south && inner.north <= outer.north
    && outer.west <= inner.west && inner.east <= outer.east
  }

  /** The degenerate box of a single point. */
  function PointBox(p: LatLng): (r: Box)
    ensures Valid(r) && Contains(r, p) && Center(r) == p
  {
    Box(p.lat, p.lng, p.lat, p.lng)
  }

  /** `new LatLngBounds(a, b)`: the smallest box holding both points, in
      whatever order they are given. */
  function Spanning(a: LatLng, b: LatLng): (r: Box)
    ensures Valid(r) && Contains(r, a) && Contains(r, b)
    ensures forall o: Box :: Contains(o, a) && Contains(o, b) ==> Encloses(o, r)
    ensures Center(r) == LatLng((a.lat + b.lat) / 2.0, (a.lng + b.lng) / 2.0)
  {
    Box(Min(a.lat, b.lat), Min(a.lng, b.lng), Max(a.lat, b.lat), Max(a.lng, b.lng))
  }

  /** `LatLngBounds.extend(bounds)`: an empty operand leaves the other alone,
      otherwise the result is the least box enclosing both. */
  function Join(a: Option<Box>, b: Option<Box>): (r: Option<Box>)
    ensures r.Some? <==> a.Some? || b.Some?
    ensures a.None? ==> r == b
    ensures b.None? ==> r == a
    ensures a.Some? && b.Some? ==> Encloses(r.value, a.value) && Encloses(r.value, b.value)
    ensures a.Some? && b.Some? ==>
      forall o: Box :: Encloses(o, a.value) && Encloses(o, b.value) ==> Encloses(o, r.value)
    ensures a.Some? && b.Some? && Valid(a.value) && Valid(b.value) ==> Valid(r.value)
  {
    match (a, b)
    case (None, _) => b
    case (_, None) => a
    case (Some(x), Some(y)) =>
      Some(Box(Min(x.south, y.south), Min(x.west, y.west), Max(x.north, y.north), Max(x.east, y.east)))
  }

  /** Every edge of the box moved by `d`. */
  function ShiftBox(b: Box, d: Offset): (r: Box)
    ensures Center(r) == Shift(Center(b), d)
    ensures Width(r) == Width(b) && Height(r) == Height(b)
    ensures Valid(r) <==> Valid(b)
    ensures forall p :: Contains(b, p) <==> Contains(r, Shift(p, d))
  {
    Box(b.south + d.dLat, b.west + d.dLng, b.north + d.dLat, b.east + d.dLng)
  }

  function ShiftBounds(o: Option<Box>, d: Offset): (r: Option<Box>)
    ensures r.Some? <==> o.Some?
    ensures o.Some? ==> r.value == ShiftBox(o.value, d)
  {
    match o
    case None => None
    case Some(b) => Some(ShiftBox(b, d))
  }

  /** Shifting two boxes and joining them is joining them and shifting. */
  lemma JoinShift(a: Option<Box>, b: Option<Box>, d: Offset)
    ensures Join(ShiftBounds(a, d), ShiftBounds(b, d)) == ShiftBounds(Join(a, b), d)
  {
  }

  /** `LatLngBounds.pad(ratio)`: every edge pushed out by `ratio` times the
      box's extent along that axis, then re-normalised by the constructor.
      The centre never moves; each extent is multiplied by |1 + 2 ratio|. */
  function Pad(b: Box, ratio: real): (r: Box)
    ensures Valid(r)
    ensures Center(r) == Center(b)
    ensures Valid(b) ==> Height(r) == Abs(1.0 + 2.0 * ratio) * Height(b)
    ensures Valid(b) ==> Width(r) == Abs(1.0 + 2.0 * ratio) * Width(b)
  {
    var heightBuffer := Abs(b.south - b.north) * ratio;
    var widthBuffer := Abs(b.west - b.east) * ratio;
    var r := Spanning(LatLng(b.south - heightBuffer, b.west - widthBuffer),
                      LatLng(b.north + heightBuffer, b.east + widthBuffer));
    assert Valid(b) ==> Height(r) == Abs(1.0 + 2.0 * ratio) * Height(b) by {
      if Valid(b) {
        ScaledSpan(b.south, b.north, ratio);
      }
    }
    assert Valid(b) ==> Width(r) == Abs(1.0 + 2.0 * ratio) * Width(b) by {
      if Valid(b) {
        ScaledSpan(b.west, b.east, ratio);
      }
    }
    r
  }

  /** One axis of `Pad`: the interval [lo, hi] padded by `ratio` spans
      |1 + 2 ratio| times its length. */
  lemma ScaledSpan(lo: real, hi: real, ratio: real)
    requires lo <= hi
    ensures var buffer := Abs(lo - hi) * ratio;
      Max(lo - buffer, hi + buffer) - Min(lo - buffer, hi + buffer)
        == Abs(1.0 + 2.0 * ratio) * (hi - lo)
  {
    var buffer := Abs(lo - hi) * ratio;
    var factor := 1.0 + 2.0 * ratio;
    assert buffer == (hi - lo) * ratio;
    assert (hi + buffer) - (lo - buffer) == factor * (hi - lo);
    if factor < 0.0 {
      NonNegativeProduct(-factor, hi - lo);
    } else {
      NonNegativeProduct(factor, hi - lo);
    }
  }

  /** Negating both sides of a quotient leaves it unchanged. */
  lemma NegatedQuotient(a: real, b: real)
    requires b != 0.0
    ensures (-a) / (-b) == a / b
  {
    var q := a / b;
    assert q * b == a;
    assert q * (-b) == -a;
  }

  lemma NonNegativeProduct(x: real, y: real)
    requires 0.0 <= x && 0.0 <= y
    ensures 0.0 <= x * y
  {
  }
}

=== FILE: layers.dfy ===
/** The layers a feature group is made of, their bounding boxes, and the
    well-formedness conditions the group operations rely on. */
module Layers {
  import opened Geometry

  /** The `_topOwner` stamp that `markFGChildren` writes on a layer. */
  datatype Tag = Untagged | Owner(id: int)

  /** The latlngs of a Polyline, Rectangle or Polygon. A plain polyline is
      flat; a polygon (or rectangle) is nested: its outer ring first, then
      its holes. A nested list always has a ring 0, possibly empty. */
  datatype Path =
    | Flat(points: seq<LatLng>)
    | Rings(outer: seq<LatLng>, holes: seq<seq<LatLng>>)

  /** The closed set of layer kinds a feature group may hold. */
  datatype Shape =
    | Marker(pos: LatLng, owner: Tag)
    | Poly(path: Path, owner: Tag)
    | Circle(center: LatLng, radius: real, owner: Tag)
    | Group(children: seq<Shape>, owner: Tag)

  /** What the map supplies and the model leaves abstract:
      - `circleReach`: the half-extent, in degrees, of a circle's projected
        bounding box, by radius (the box is the same wherever the circle is);
      - `pathCenter`: `getCenter()` of a polyline or polygon;
      - `offCentre`: the trigonometric branch of `findScaledSubCenter`, taking
        the member's centre, the scale and the old and new group boxes. */
  datatype Env = Env(
    circleReach: real -> Offset,
    pathCenter: Path -> LatLng,
    offCentre: (LatLng, real, Box, Box) -> LatLng)

  function CircleBox(env: Env, c: LatLng, radius: real): (r: Box)
    ensures Valid(r) && Center(r) == c
  {
    var reach := env.circleReach(radius);
    Spanning(Shift(c, Negate(reach)), Shift(c, reach))
  }

  /** Bounds of a list of vertices: `None` when there are none, otherwise
      the least box holding every vertex. */
  function PathBounds(pts: seq<LatLng>): (r: Option<Box>)
    ensures r.Some? <==> |pts| > 0
    ensures r.Some? ==> Valid(r.value)
    ensures r.Some? ==> forall i :: 0 <= i < |pts| ==> Contains(r.value, pts[i])
  {
    if |pts| == 0 then None else Join(Some(PointBox(pts[0])), PathBounds(pts[1..]))
  }

  function RingsBounds(rings: seq<seq<LatLng>>): (r: Option<Box>)
    ensures r.Some? ==> Valid(r.value)
  {
    if |rings| == 0 then None else Join(PathBounds(rings[0]), RingsBounds(rings[1..]))
  }

  /** A polyline's or polygon's `getBounds()`: every vertex of every ring. */
  function PolyBounds(path: Path): (r: Option<Box>)
    ensures r.Some? ==> Valid(r.value)
  {
    match path
    case Flat(pts) => PathBounds(pts)
    case Rings(outer, holes) => Join(PathBounds(outer), RingsBounds(holes))
  }

  /** A layer's bounding box as `FeatureGroup.getBounds()` extends it: a
      marker contributes its point, a group the union of its members'
      boxes, and an empty group or path contributes nothing. */
  function Bounds(env: Env, s: Shape): (r: Option<Box>)
    ensures r.Some? ==> Valid(r.value)
    decreases s
  {
    match s
    case Marker(p, _) => Some(PointBox(p))
    case Poly(path, _) => PolyBounds(path)
    case Circle(c, radius, _) => Some(CircleBox(env, c, radius))
    case Group(cs, _) => BoundsAll(env, cs)
  }

  function BoundsAll(env: Env, cs: seq<Shape>): (r: Option<Box>)
    ensures r.Some? ==> Valid(r.value)
    decreases cs
  {
    if |cs| == 0 then None else Join(Bounds(env, cs[0]), BoundsAll(env, cs[1..]))
  }

  /** The conditions, checked node by node, that the operations need. */
  datatype Property =
      /** every group has a box, so `getBounds().getCenter()` is defined */
    | GroupsHaveBounds
      /** every group has a box of non-zero width, so `getDeltaScale` does not divide by zero */
    | GroupsHaveWidth
      /** every polygon's holes lie in the box of its outer ring */
    | HolesInsideOuter
      /** no polygon has holes */
    | NoHoles
      /** no polygon has vertices in its holes but none in its outer ring */
    | OuterRingsFirst

  predicate Holds(env: Env, p: Property, s: Shape) {
    match p
    case GroupsHaveBounds => s.Group? ==> Bounds(env, s).Some?
    case GroupsHaveWidth => s.Group? ==> Bounds(env, s).Some? && Width(Bounds(env, s).value) != 0.0
    case HolesInsideOuter => s.Poly? && s.path.Rings? ==> PolyBounds(s.path) == PathBounds(s.path.outer)
    case NoHoles => s.Poly? && s.path.Rings? ==> s.path.holes == []
    case OuterRingsFirst => s.Poly? && s.path.Rings? && s.path.outer == [] ==> RingsBounds(s.path.holes).None?
  }

  /** `p` holds of `s` and of every layer reachable from it. */
  predicate Everywhere(env: Env, p: Property, s: Shape)
    decreases s
  {
    Holds(env, p, s) && (s.Group? ==> EverywhereAll(env, p, s.children))
  }

  predicate EverywhereAll(env: Env, p: Property, cs: seq<Shape>)
    decreases cs
  {
    |cs| == 0 || (Everywhere(env, p, cs[0]) && EverywhereAll(env, p, cs[1..]))
  }

  predicate Solid(env: Env, s: Shape) { Everywhere(env, GroupsHaveBounds, s) }
  predicate Resizable(env: Env, s: Shape) { Everywhere(env, GroupsHaveWidth, s) }

  /** `getSubLayerCenter`: a marker's or circle's position, a group's box
      centre, and `getCenter()` for anything else. */
  function SubLayerCenter(env: Env, layer: Shape): (c: LatLng)
    requires Holds(env, GroupsHaveBounds, layer)
    ensures layer.Marker? ==> c == layer.pos
    ensures layer.Circle? ==> c == layer.center
    ensures layer.Group? ==> c == Center(Bounds(env, layer).value)
    ensures layer.Poly? ==> c == env.pathCenter(layer.path)
    ensures !layer.Poly? ==> Contains(Bounds(env, layer).value, c)
  {
    match layer
    case Marker(p, _) => p
    case Circle(c, _, _) => c
    case Group(_, _) => Center(Bounds(env, layer).value)
    case Poly(path, _) => env.pathCenter(path)
  }

  /** A property that implies another node by node implies it everywhere. */
  lemma {:induction false} EverywhereWeakens(env: Env, p: Property, q: Property, s: Shape)
    requires forall t :: Holds(env, p, t) ==> Holds(env, q, t)
    requires Everywhere(env, p, s)
    ensures Everywhere(env, q, s)
    decreases s
  {
    if s.Group? {
      EverywhereAllWeakens(env, p, q, s.children);
    }
  }

  lemma {:induction false} EverywhereAllWeakens(env: Env, p: Property, q: Property, cs: seq<Shape>)
    requires forall t :: Holds(env, p, t) ==> Holds(env, q, t)
    requires EverywhereAll(env, p, cs)
    ensures EverywhereAll(env, q, cs)
    decreases cs
  {
    if |cs| > 0 {
      EverywhereWeakens(env, p, q, cs[0]);
      EverywhereAllWeakens(env, p, q, cs[1..]);
    }
  }

  /** A group that can be resized can also be moved, and a polygon without
      holes has its holes inside its outer ring. */
  lemma ResizableIsSolid(env: Env, s: Shape)
    requires Resizable(env, s)
    ensures Solid(env, s)
  {
    EverywhereWeakens(env, GroupsHaveWidth, GroupsHaveBounds, s);
  }

  lemma NoHolesAreInside(env: Env, s: Shape)
    requires Everywhere(env, NoHoles, s)
    ensures Everywhere(env, HolesInsideOuter, s)
    ensures Everywhere(env, OuterRingsFirst, s)
  {
    EverywhereWeakens(env, NoHoles, HolesInsideOuter, s);
    EverywhereWeakens(env, NoHoles, OuterRingsFirst, s);
  }

  lemma InsideHolesComeFirst(env: Env, s: Shape)
    requires Everywhere(env, HolesInsideOuter, s)
    ensures Everywhere(env, OuterRingsFirst, s)
  {
    EverywhereWeakens(env, HolesInsideOuter, OuterRingsFirst, s);
  }
}

=== FILE: move.dfy ===
/** Moving a feature group: `moveFeatureGroup` and `moveFGSubLayer`
    (leaflet.fgutils.js), against a reference definition, `Translate`, that
    shifts every layer of the tree by one offset. */
module FGMove {
  import opened Geometry
  import opened Layers

  function TranslatePath(pts: seq<LatLng>, d: Offset): (r: seq<LatLng>)
    ensures |r| == |pts|
    ensures forall i :: 0 <= i < |pts| ==> r[i] == Shift(pts[i], d)
  {
    if |pts| == 0 then [] else [Shift(pts[0], d)] + TranslatePath(pts[1..], d)
  }

  /** The reference for a move: markers and circle centres shifted by `d`,
      radii kept, every vertex of a flat path shifted, the outer ring of a
      polygon shifted and its holes dropped (the library writes back only
      ring 0), groups shifted member by member with the same `d`. */
  function Translate(s: Shape, d: Offset): (r: Shape)
    decreases s
  {
    match s
    case Marker(p, o) => Marker(Shift(p, d), o)
    case Poly(Flat(pts), o) => Poly(Flat(TranslatePath(pts, d)), o)
    case Poly(Rings(outer, _), o) => Poly(Rings(TranslatePath(outer, d), []), o)
    case Circle(c, radius, o) => Circle(Shift(c, d), radius, o)
    case Group(cs, o) => Group(TranslateAll(cs, d), o)
  }

  function TranslateAll(cs: seq<Shape>, d: Offset): (r: seq<Shape>)
    ensures |r| == |cs|
    decreases cs
  {
    if |cs| == 0 then [] else [Translate(cs[0], d)] + TranslateAll(cs[1..], d)
  }

  /** `moveFeatureGroup`: the offset is the new centre minus the centre of
      the group's current box, and every member is moved by it. The result
      is the whole tree translated by that one offset. */
  function MoveFeatureGroup(env: Env, fg: Shape, newCenter: LatLng): (r: Shape)
    requires fg.Group? && Solid(env, fg)
    ensures r == Translate(fg, Between(Center(Bounds(env, fg).value), newCenter))
    decreases fg, 0
  {
    var oldCenter := Center(Bounds(env, fg).value);
    var move := Between(oldCenter, newCenter);
    Group(MoveLayers(env, fg.children, move), fg.owner)
  }

  /** `fg.eachLayer(moveFGSubLayer)`. */
  function MoveLayers(env: Env, cs: seq<Shape>, move: Offset): (r: seq<Shape>)
    requires EverywhereAll(env, GroupsHaveBounds, cs)
    ensures r == TranslateAll(cs, move)
    decreases cs
  {
    if |cs| == 0 then [] else [MoveFGSubLayer(env, cs[0], move)] + MoveLayers(env, cs[1..], move)
  }

  /** `moveFGSubLayer`: a nested group is not shifted directly but moved to
      its own shifted centre, which re-derives the same offset. */
  function MoveFGSubLayer(env: Env, layer: Shape, move: Offset): (r: Shape)
    requires Solid(env, layer)
    ensures r == Translate(layer, move)
    decreases layer, 1
  {
    var newSubCenter := Shift(SubLayerCenter(env, layer), move);
    match layer
    case Marker(_, o) => Marker(newSubCenter, o)
    case Poly(Flat(pts), o) => Poly(Flat(TranslatePath(pts, move)), o)
    case Poly(Rings(outer, _), o) => Poly(Rings(TranslatePath(outer, move), []), o)
    case Circle(_, radius, o) => Circle(newSubCenter, radius, o)
    case Group(_, _) => MoveFeatureGroup(env, layer, newSubCenter)
  }

  lemma {:induction false} PathBoundsShift(pts: seq<LatLng>, d: Offset)
    ensures PathBounds(TranslatePath(pts, d)) == ShiftBounds(PathBounds(pts), d)
    decreases pts
  {
    if |pts| > 0 {
      var t := TranslatePath(pts, d);
      assert t[1..] == TranslatePath(pts[1..], d);
      PathBoundsShift(pts[1..], d);
    }
  }

  /** Translating a tree whose holes sit inside their outer rings moves its
      bounding box by exactly the same offset. */
  lemma {:induction false} TranslateBounds(env: Env, s: Shape, d: Offset)
    requires Everywhere(env, HolesInsideOuter, s)
    ensures Bounds(env, Translate(s, d)) == ShiftBounds(Bounds(env, s), d)
    decreases s
  {
    match s
    case Marker(p, o) =>
    case Poly(Flat(pts), o) => PathBoundsShift(pts, d);
    case Poly(Rings(outer, _), o) => PathBoundsShift(outer, d);
    case Circle(c, radius, o) =>
    case Group(cs, o) => TranslateBoundsAll(env, cs, d);
  }

  lemma {:induction false} TranslateBoundsAll(env: Env, cs: seq<Shape>, d: Offset)
    requires EverywhereAll(env, HolesInsideOuter, cs)
    ensures BoundsAll(env, TranslateAll(cs, d)) == ShiftBounds(BoundsAll(env, cs), d)
    decreases cs
  {
    if |cs| > 0 {
      var t := TranslateAll(cs, d);
      assert t[0] == Translate(cs[0], d) && t[1..] == TranslateAll(cs[1..], d);
      TranslateBounds(env, cs[0], d);
      TranslateBoundsAll(env, cs[1..], d);
      JoinShift(Bounds(env, cs[0]), BoundsAll(env, cs[1..]), d);
    }
  }

  /** Translation empties a box only where a polygon had vertices in its
      holes and none in its outer ring. */
  lemma {:induction false} TranslateKeepsBox(env: Env, s: Shape, d: Offset)
    requires Everywhere(env, OuterRingsFirst, s)
    ensures Bounds(env, Translate(s, d)).Some? == Bounds(env, s).Some?
    ensures Everywhere(env, GroupsHaveBounds, s) ==> Everywhere(env, GroupsHaveBounds, Translate(s, d))
    decreases s
  {
    match s
    case Marker(p, o) =>
    case Poly(Flat(pts), o) =>
    case Poly(Rings(outer, holes), o) =>
    case Circle(c, radius, o) =>
    case Group(cs, o) => TranslateKeepsBoxAll(env, cs, d);
  }

  lemma {:induction false} TranslateKeepsBoxAll(env: Env, cs: seq<Shape>, d: Offset)
    requires EverywhereAll(env, OuterRingsFirst, cs)
    ensures BoundsAll(env, TranslateAll(cs, d)).Some? == BoundsAll(env, cs).Some?
    ensures EverywhereAll(env, GroupsHaveBounds, cs) ==> EverywhereAll(env, GroupsHaveBounds, TranslateAll(cs, d))
    decreases cs
  {
    if |cs| > 0 {
      var t := TranslateAll(cs, d);
      assert t[0] == Translate(cs[0], d) && t[1..] == TranslateAll(cs[1..], d);
      TranslateKeepsBox(env, cs[0], d);
      TranslateKeepsBoxAll(env, cs[1..], d);
    }
  }

  /** After a translation no polygon has holes left. */
  lemma {:induction false} TranslateDropsHoles(env: Env, s: Shape, d: Offset)
    ensures Everywhere(env, NoHoles, Translate(s, d))
    decreases s
  {
    if s.Group? {
      TranslateDropsHolesAll(env, s.children, d);
    }
  }

  lemma {:induction false} TranslateDropsHolesAll(env: Env, cs: seq<Shape>, d: Offset)
    ensures EverywhereAll(env, NoHoles, TranslateAll(cs, d))
    decreases cs
  {
    if |cs| > 0 {
      var t := TranslateAll(cs, d);
      assert t[0] == Translate(cs[0], d) && t[1..] == TranslateAll(cs[1..], d);
      TranslateDropsHoles(env, cs[0], d);
      TranslateDropsHolesAll(env, cs[1..], d);
    }
  }

  lemma {:induction false} TranslatePathThen(pts: seq<LatLng>, d: Offset, e: Offset)
    ensures TranslatePath(TranslatePath(pts, d), e) == TranslatePath(pts, Then(d, e))
  {
  }

  /** Two translations in a row are one translation by the summed offset. */
  lemma {:induction false} TranslateThen(s: Shape, d: Offset, e: Offset)
    ensures Translate(Translate(s, d), e) == Translate(s, Then(d, e))
    decreases s
  {
    match s
    case Marker(p, o) =>
    case Poly(Flat(pts), o) => TranslatePathThen(pts, d, e);
    case Poly(Rings(outer, _), o) => TranslatePathThen(outer, d, e);
    case Circle(c, radius, o) =>
    case Group(cs, o) => TranslateThenAll(cs, d, e);
  }

  lemma {:induction false} TranslateThenAll(cs: seq<Shape>, d: Offset, e: Offset)
    ensures TranslateAll(TranslateAll(cs, d), e) == TranslateAll(cs, Then(d, e))
    decreases cs
  {
    if |cs| > 0 {
      var t := TranslateAll(cs, d);
      assert t[0] == Translate(cs[0], d) && t[1..] == TranslateAll(cs[1..], d);
      TranslateThen(cs[0], d, e);
      TranslateThenAll(cs[1..], d, e);
    }
  }

  /** Translating a tree without holes by nothing gives it back unchanged. */
  lemma {:induction false} TranslateNowhere(env: Env, s: Shape)
    requires Everywhere(env, NoHoles, s)
    ensures Translate(s, Offset(0.0, 0.0)) == s
    decreases s
  {
    match s
    case Marker(p, o) =>
    case Poly(Flat(pts), o) =>
    case Poly(Rings(outer, _), o) =>
    case Circle(c, radius, o) =>
    case Group(cs, o) => TranslateNowhereAll(env, cs);
  }

  lemma {:induction false} TranslateNowhereAll(env: Env, cs: seq<Shape>)
    requires EverywhereAll(env, NoHoles, cs)
    ensures TranslateAll(cs, Offset(0.0, 0.0)) == cs
    decreases cs
  {
    if |cs| > 0 {
      TranslateNowhere(env, cs[0]);
      TranslateNowhereAll(env, cs[1..]);
      assert cs == [cs[0]] + cs[1..];
    }
  }

  /** After `moveFeatureGroup(fg, c)` the group's box is the old box shifted
      by (c - old centre), so its centre is exactly `c`. */
  lemma MoveFeatureGroupCentres(env: Env, fg: Shape, newCenter: LatLng)
    requires fg.Group? && Solid(env, fg) && Everywhere(env, HolesInsideOuter, fg)
    ensures var b := Bounds(env, fg).value;
      Bounds(env, MoveFeatureGroup(env, fg, newCenter))
        == Some(ShiftBox(b, Between(Center(b), newCenter)))
    ensures Bounds(env, MoveFeatureGroup(env, fg, newCenter)).Some?
    ensures Center(Bounds(env, MoveFeatureGroup(env, fg, newCenter)).value) == newCenter
  {
    var b := Bounds(env, fg).value;
    TranslateBounds(env, fg, Between(Center(b), newCenter));
  }

  /** A moved group has no holes left, and is still movable unless a
      polygon lost every vertex it had. */
  lemma MovedStaysSolid(env: Env, fg: Shape, newCenter: LatLng)
    requires fg.Group? && Solid(env, fg)
    ensures Everywhere(env, OuterRingsFirst, fg) ==> Solid(env, MoveFeatureGroup(env, fg, newCenter))
    ensures Everywhere(env, NoHoles, MoveFeatureGroup(env, fg, newCenter))
  {
    var d := Between(Center(Bounds(env, fg).value), newCenter);
    if Everywhere(env, OuterRingsFirst, fg) {
      TranslateKeepsBox(env, fg, d);
    }
    TranslateDropsHoles(env, fg, d);
  }

  /** Moving a hole-free group anywhere and then back to its original
      centre restores every coordinate, radius and tag. */
  lemma MoveBackRestores(env: Env, fg: Shape, newCenter: LatLng)
    requires fg.Group? && Solid(env, fg) && Everywhere(env, NoHoles, fg)
    ensures var moved := MoveFeatureGroup(env, fg, newCenter);
      Solid(env, moved)
      && MoveFeatureGroup(env, moved, Center(Bounds(env, fg).value)) == fg
  {
    var c0 := Center(Bounds(env, fg).value);
    var d := Between(c0, newCenter);
    NoHolesAreInside(env, fg);
    MovedStaysSolid(env, fg, newCenter);
    MoveFeatureGroupCentres(env, fg, newCenter);
    var moved := MoveFeatureGroup(env, fg, newCenter);
    var e := Between(newCenter, c0);
    TranslateThen(fg, d, e);
    assert Then(d, e) == Offset(0.0, 0.0);
    TranslateNowhere(env, fg);
  }

  /** The centre `moveFGSubLayer` computes for a marker, circle or group
      is where that layer's centre is after the move. */
  lemma SubLayerCenterFollows(env: Env, layer: Shape, move: Offset)
    requires !layer.Poly? && Solid(env, layer) && Everywhere(env, HolesInsideOuter, layer)
    ensures Solid(env, Translate(layer, move))
    ensures SubLayerCenter(env, Translate(layer, move)) == Shift(SubLayerCenter(env, layer), move)
  {
    InsideHolesComeFirst(env, layer);
    TranslateKeepsBox(env, layer, move);
    TranslateBounds(env, layer, move);
  }
}

=== FILE: ownership.dfy ===
/** `markFGChildren` (leaflet.fgutils.js): stamp a group and everything
    reachable from it with one owner id. */
module FGOwnership {
  import opened Geometry
  import opened Layers

  /** The tree with every tag cleared: what a layer is apart from its owner. */
  function Untag(s: Shape): Shape
    decreases s
  {
    match s
    case Marker(p, _) => Marker(p, Untagged)
    case Poly(path, _) => Poly(path, Untagged)
    case Circle(c, radius, _) => Circle(c, radius, Untagged)
    case Group(cs, _) => Group(UntagAll(cs), Untagged)
  }

  function UntagAll(cs: seq<Shape>): (r: seq<Shape>)
    ensures |r| == |cs|
    decreases cs
  {
    if |cs| == 0 then [] else [Untag(cs[0])] + UntagAll(cs[1..])
  }

  /** `s` and every layer reachable from it carry the owner `id`. */
  predicate OwnedBy(s: Shape, id: int)
    decreases s
  {
    s.owner == Owner(id) && (s.Group? ==> AllOwnedBy(s.children, id))
  }

  predicate AllOwnedBy(cs: seq<Shape>, id: int)
    decreases cs
  {
    |cs| == 0 || (OwnedBy(cs[0], id) && AllOwnedBy(cs[1..], id))
  }

  /** `markFGChildren(fg, idx)`: the id is `idx` when given and otherwise
      `L.stamp(fg)`, supplied here as `stamp`; nested groups are marked
      with that same id. Afterwards the group and every reachable layer
      carry the id, and nothing but the tags has changed. */
  function MarkFGChildren(fg: Shape, idx: Option<int>, stamp: int): (r: Shape)
    requires fg.Group?
    ensures OwnedBy(r, if idx.Some? then idx.value else stamp)
    ensures Untag(r) == Untag(fg)
    decreases fg, 0
  {
    var id := if idx.Some? then idx.value else stamp;
    Group(MarkLayers(fg.children, id, stamp), Owner(id))
  }

  /** The `eachLayer` loop of `markFGChildren`. */
  function MarkLayers(cs: seq<Shape>, id: int, stamp: int): (r: seq<Shape>)
    ensures AllOwnedBy(r, id)
    ensures UntagAll(r) == UntagAll(cs)
    decreases cs
  {
    if |cs| == 0 then []
    else
      var layer := cs[0];
      var marked :=
        match layer
        case Group(_, _) => MarkFGChildren(layer, Some(id), stamp)
        case Marker(p, _) => Marker(p, Owner(id))
        case Poly(path, _) => Poly(path, Owner(id))
        case Circle(c, radius, _) => Circle(c, radius, Owner(id));
      var rest := MarkLayers(cs[1..], id, stamp);
      var r := [marked] + rest;
      assert r[0] == marked && r[1..] == rest;
      r
  }

  /** Two trees that differ only in their tags and are both owned by one id
      are the same tree. */
  lemma {:induction false} OwnedUntagDetermines(a: Shape, b: Shape, id: int)
    requires Untag(a) == Untag(b) && OwnedBy(a, id) && OwnedBy(b, id)
    ensures a == b
    decreases a
  {
    match a
    case Marker(_, _) =>
    case Poly(_, _) =>
    case Circle(_, _, _) =>
    case Group(cs, _) =>
      OwnedUntagDeterminesAll(cs, b.children, id);
  }

  lemma {:induction false} OwnedUntagDeterminesAll(xs: seq<Shape>, ys: seq<Shape>, id: int)
    requires UntagAll(xs) == UntagAll(ys) && AllOwnedBy(xs, id) && AllOwnedBy(ys, id)
    ensures xs == ys
    decreases xs
  {
    if |xs| > 0 {
      assert UntagAll(xs)[0] == Untag(xs[0]) && UntagAll(xs)[1..] == UntagAll(xs[1..]);
      assert UntagAll(ys)[0] == Untag(ys[0]) && UntagAll(ys)[1..] == UntagAll(ys[1..]);
      OwnedUntagDetermines(xs[0], ys[0], id);
      OwnedUntagDeterminesAll(xs[1..], ys[1..], id);
      assert xs == [xs[0]] + xs[1..];
      assert ys == [ys[0]] + ys[1..];
    }
  }

  /** Marking again overwrites: the earlier marking leaves no trace. */
  lemma MarkOverwrites(fg: Shape, first: Option<int>, firstStamp: int, second: Option<int>, secondStamp: int)
    requires fg.Group?
    ensures MarkFGChildren(MarkFGChildren(fg, first, firstStamp), second, secondStamp)
      == MarkFGChildren(fg, second, secondStamp)
  {
    var once := MarkFGChildren(fg, first, firstStamp);
    var id := if second.Some? then second.value else secondStamp;
    OwnedUntagDetermines(MarkFGChildren(once, second, secondStamp), MarkFGChildren(fg, second, secondStamp), id);
  }

  /** Marking twice with the same id changes nothing the second time. */
  lemma MarkIdempotent(fg: Shape, idx: Option<int>, stamp: int)
    requires fg.Group?
    ensures var once := MarkFGChildren(fg, idx, stamp);
      MarkFGChildren(once, idx, stamp) == once
  {
    MarkOverwrites(fg, idx, stamp, idx, stamp);
  }
}

=== FILE: redimension.dfy ===
/** `redimensionFeatureGroup` (leaflet.fgutils.js): force a group onto a
    target box, by a move when the width ratio is within
    `RedimensionMoveRatio` of 1, otherwise by a resize with a fixed corner
    chosen from which edges the target shares with the current box. */
module FGRedimension {
  import opened Geometry
  import opened Layers
  import opened FGMove
  import opened FGChecks
  import opened FGResize

  /** The target is close enough in width for a move alone: the width
      ratio is within `RedimensionMoveRatio` of 1. */
  predicate MoveSuffices(bbO: Box, bbN: Box)
    requires Width(bbO) != 0.0
  {
    Abs(GetDeltaScale(bbO, bbN) - 1.0) <= RedimensionMoveRatio
  }

  /** What `redimensionFeatureGroup` decides to do. */
  datatype Plan = MoveTo(center: LatLng) | ResizeAt(point: LatLng, index: int)

  predicate SharesNorthEast(bbO: Box, bbN: Box) { bbN.north == bbO.north && bbN.east == bbO.east }
  predicate SharesNorthWest(bbO: Box, bbN: Box) { bbN.north == bbO.north && bbN.west == bbO.west }
  predicate SharesSouthWest(bbO: Box, bbN: Box) { bbN.south == bbO.south && bbN.west == bbO.west }

  /** The decision: a move to the target's centre when the scale is close to
      1; otherwise the first corner test that matches, in the order
      north-east (index 0), north-west (1), south-west (2), with index 3 as
      the fallback. The point handed on is the target's north-east corner
      for indices 0 and 3 and its north-west corner for 1 and 2. */
  function RedimensionPlan(bbO: Box, bbN: Box): (p: Plan)
    requires Width(bbO) != 0.0
    ensures p.MoveTo? <==> MoveSuffices(bbO, bbN)
    ensures p.MoveTo? ==> p.center == Center(bbN)
    ensures p.ResizeAt? ==> 0 <= p.index <= 3
    ensures p.ResizeAt? ==> (p.index == 0 <==> SharesNorthEast(bbO, bbN))
    ensures p.ResizeAt? ==> (p.index == 1 <==> !SharesNorthEast(bbO, bbN) && SharesNorthWest(bbO, bbN))
    ensures p.ResizeAt? ==>
      (p.index == 2 <==> !SharesNorthEast(bbO, bbN) && !SharesNorthWest(bbO, bbN) && SharesSouthWest(bbO, bbN))
    ensures p.ResizeAt? && (p.index == 0 || p.index == 3) ==> p.point == NorthEast(bbN)
    ensures p.ResizeAt? && (p.index == 1 || p.index == 2) ==> p.point == NorthWest(bbN)
  {
    if MoveSuffices(bbO, bbN) then
      MoveTo(Center(bbN))
    else
      var left := bbN.west;
      var right := bbN.east;
      var top := bbN.north;
      var bottom := bbN.south;
      var width := right - left;
      var height := top - bottom;
      if top == bbO.north && left + width == bbO.east then ResizeAt(LatLng(top, left + width), 0)
      else if top == bbO.north && left == bbO.west then ResizeAt(LatLng(top, left), 1)
      else if top - height == bbO.south && left == bbO.west then ResizeAt(LatLng(top, left), 2)
      else ResizeAt(LatLng(top, left + width), 3)
  }

  /** `redimensionFeatureGroup`. In move mode the result is the group
      rigidly translated from its box centre to the target's centre, with
      nothing scaled. */
  function RedimensionFeatureGroup(env: Env, fg: Shape, bbN: Box): (r: Shape)
    requires fg.Group? && Solid(env, fg) && Holds(env, GroupsHaveWidth, fg)
    requires !MoveSuffices(Bounds(env, fg).value, bbN) ==> Resizable(env, fg)
    ensures r.Group? && r.owner == fg.owner && |r.children| == |fg.children|
    ensures var bbO := Bounds(env, fg).value;
      MoveSuffices(bbO, bbN) ==>
        r == Translate(fg, Between(Center(bbO), Center(bbN)))
    ensures var plan := RedimensionPlan(Bounds(env, fg).value, bbN);
      plan.ResizeAt? ==> r == ResizeFeatureGroup(env, fg, bbN, Some(plan.point), plan.index)
  {
    var bbO := Bounds(env, fg).value;
    var plan := RedimensionPlan(bbO, bbN);
    if plan.MoveTo? then
      MoveFeatureGroup(env, fg, Center(bbN))
    else
      ResizeFeatureGroup(env, fg, bbN, Some(plan.point), plan.index)
  }

  /** In move mode the group ends up centred on the target box with its own
      size unchanged. */
  lemma RedimensionMoveCentres(env: Env, fg: Shape, bbN: Box)
    requires fg.Group? && Solid(env, fg) && Holds(env, GroupsHaveWidth, fg)
    requires Everywhere(env, HolesInsideOuter, fg)
    requires MoveSuffices(Bounds(env, fg).value, bbN)
    ensures var r := RedimensionFeatureGroup(env, fg, bbN);
      var bbO := Bounds(env, fg).value;
      Bounds(env, r).Some? && Center(Bounds(env, r).value) == Center(bbN)
      && Width(Bounds(env, r).value) == Width(bbO) && Height(Bounds(env, r).value) == Height(bbO)
  {
    var bbO := Bounds(env, fg).value;
    var d := Between(Center(bbO), Center(bbN));
    assert RedimensionFeatureGroup(env, fg, bbN) == Translate(fg, d);
    TranslateBounds(env, fg, d);
  }

  /** In resize mode the corner `setResizeFix` pins lands on the chosen
      point. So with index 2 the result's north-west corner is the target's,
      and with index 3 its north-east corner is; but with index 0 it is the
      result's south-east corner that sits on the target's north-east
      corner, and with index 1 its south-west corner on the target's
      north-west corner. */
  lemma RedimensionPinsCorner(env: Env, fg: Shape, bbN: Box)
    requires fg.Group? && Solid(env, fg) && Resizable(env, fg) && Everywhere(env, NoHoles, fg)
    requires !MoveSuffices(Bounds(env, fg).value, bbN)
    ensures var plan := RedimensionPlan(Bounds(env, fg).value, bbN);
      var r := RedimensionFeatureGroup(env, fg, bbN);
      plan.ResizeAt? && Bounds(env, r).Some?
      && PinnedCorner(Bounds(env, r).value, plan.index) == plan.point
      && (plan.index == 0 ==> SouthEast(Bounds(env, r).value) == NorthEast(bbN))
      && (plan.index == 1 ==> SouthWest(Bounds(env, r).value) == NorthWest(bbN))
      && (plan.index == 2 ==> NorthWest(Bounds(env, r).value) == NorthWest(bbN))
      && (plan.index == 3 ==> NorthEast(Bounds(env, r).value) == NorthEast(bbN))
  {
    var plan := RedimensionPlan(Bounds(env, fg).value, bbN);
    ResizePinsCorner(env, fg, bbN, plan.point, plan.index);
  }
}

=== FILE: resize.dfy ===
/** Resizing a feature group: `resizeFeatureGroup`, `scaleFGSublayer`,
    `findScaledSubCenter`, `scaleLatLngs`, `adjustFGSubBBox` and
    `setResizeFix` (leaflet.fgutils.js). */
module FGResize {
  import opened Geometry
  import opened Layers
  import opened FGMove
  import opened FGChecks

  /** `findScaledSubCenter`: a member sitting at the old group centre goes
      to the new group centre; anywhere else the placement is the map's
      trigonometry, left abstract in `env.offCentre`. */
  function FindScaledSubCenter(env: Env, layer: Shape, scale: real, bbO: Box, bbN: Box): (r: LatLng)
    requires Holds(env, GroupsHaveBounds, layer)
    ensures SubLayerCenter(env, layer) == Center(bbO) ==> r == Center(bbN)
  {
    var centerP := SubLayerCenter(env, layer);
    if centerP == Center(bbO) then Center(bbN) else env.offCentre(centerP, scale, bbO, bbN)
  }

  /** One vertex of `scaleLatLngs`. */
  function ScalePoint(v: LatLng, layerCenter: LatLng, scale: real, newSubCenter: LatLng): LatLng {
    LatLng((v.lat - layerCenter.lat) * scale + newSubCenter.lat,
           (v.lng - layerCenter.lng) * scale + newSubCenter.lng)
  }

  /** The offset between two scaled vertices is the offset between the
      originals, multiplied by `scale`. */
  lemma ScalePointDifference(u: LatLng, v: LatLng, layerCenter: LatLng, scale: real, newSubCenter: LatLng)
    ensures Between(ScalePoint(u, layerCenter, scale, newSubCenter), ScalePoint(v, layerCenter, scale, newSubCenter))
      == Stretch(Between(u, v), scale)
  {
    assert (v.lat - layerCenter.lat) * scale - (u.lat - layerCenter.lat) * scale == (v.lat - u.lat) * scale;
    assert (v.lng - layerCenter.lng) * scale - (u.lng - layerCenter.lng) * scale == (v.lng - u.lng) * scale;
  }

  lemma ScaledPairs(pts: seq<LatLng>, r: seq<LatLng>, layerCenter: LatLng, scale: real, newSubCenter: LatLng)
    requires |r| == |pts|
    requires forall i :: 0 <= i < |pts| ==> r[i] == ScalePoint(pts[i], layerCenter, scale, newSubCenter)
    ensures forall i, j :: 0 <= i < |pts| && 0 <= j < |pts| ==>
      Between(r[j], r[i]) == Stretch(Between(pts[j], pts[i]), scale)
  {
    forall i, j | 0 <= i < |pts| && 0 <= j < |pts|
      ensures Between(r[j], r[i]) == Stretch(Between(pts[j], pts[i]), scale)
    {
      ScalePointDifference(pts[j], pts[i], layerCenter, scale, newSubCenter);
    }
  }

  /** `scaleLatLngs` on one ring: each vertex keeps its offset from the
      layer's centre, multiplied by `scale`, now measured from the new
      centre. So every vertex-to-vertex offset is multiplied by `scale` and
      a vertex at the old centre lands on the new one. */
  function ScaleLatLngs(pts: seq<LatLng>, layerCenter: LatLng, scale: real, newSubCenter: LatLng): (r: seq<LatLng>)
    ensures |r| == |pts|
    ensures forall i, j :: 0 <= i < |pts| && 0 <= j < |pts| ==>
      Between(r[j], r[i]) == Stretch(Between(pts[j], pts[i]), scale)
    ensures forall i :: 0 <= i < |pts| ==>
      Between(newSubCenter, r[i]) == Stretch(Between(layerCenter, pts[i]), scale)
    ensures forall i :: 0 <= i < |pts| && pts[i] == layerCenter ==> r[i] == newSubCenter
  {
    var r := seq(|pts|, i requires 0 <= i < |pts| => ScalePoint(pts[i], layerCenter, scale, newSubCenter));
    ScaledPairs(pts, r, layerCenter, scale, newSubCenter);
    r
  }

  /** Rings of equal lengths have a box together, or have none. */
  lemma {:induction false} RingsBoundsByLengths(a: seq<seq<LatLng>>, b: seq<seq<LatLng>>)
    requires |a| == |b| && forall k :: 0 <= k < |a| ==> |a[k]| == |b[k]|
    ensures RingsBounds(a).Some? == RingsBounds(b).Some?
  {
    if |a| > 0 {
      RingsBoundsByLengths(a[1..], b[1..]);
    }
  }

  /** Rewriting ring `k` of a list leaves every other ring; a list that
      agrees with the rewritten one up to `k + 1` starts with the old list's
      first `k` rings. */
  lemma RewriteOneRing(holes: seq<seq<LatLng>>, next: seq<seq<LatLng>>, r: seq<seq<LatLng>>, k: nat)
    requires k < |holes| == |next| == |r|
    requires forall j :: 0 <= j < |holes| && j != k ==> next[j] == holes[j]
    requires r[..k + 1] == next[..k + 1]
    ensures r[k] == next[k] && r[..k] + holes[k..] == holes
    ensures forall j :: k < j < |holes| ==> next[j..] == holes[j..]
  {
    assert r[..k] == r[..k + 1][..k];
    assert r[..k] == holes[..k];
    forall j | k < j < |holes|
      ensures next[j..] == holes[j..]
    {
      assert |next[j..]| == |holes[j..]|;
    }
  }

  /** The loop of `scaleFGSublayer` over the holes of a nested path, from
      hole `k` on, with the holes before `k` already rewritten in `holes`.
      `scaleLatLngs` asks the layer for `getCenter()` once per ring, so each
      hole is scaled about the centre of the path as it stands at that
      hole's turn: the outer ring and the earlier holes rewritten, this hole
      and the later ones not yet. */
  function ScaleHoles(env: Env, outer: seq<LatLng>, holes: seq<seq<LatLng>>, k: nat,
                      scale: real, newSubCenter: LatLng): (r: seq<seq<LatLng>>)
    requires k <= |holes|
    ensures |r| == |holes| && r[..k] == holes[..k]
    ensures forall j :: k <= j < |holes| ==>
      r[j] == ScaleLatLngs(holes[j], env.pathCenter(Rings(outer, r[..j] + holes[j..])), scale, newSubCenter)
    decreases |holes| - k
  {
    if k == |holes| then holes
    else
      var next := holes[k := ScaleLatLngs(holes[k], env.pathCenter(Rings(outer, holes)), scale, newSubCenter)];
      var r := ScaleHoles(env, outer, next, k + 1, scale, newSubCenter);
      RewriteOneRing(holes, next, r, k);
      r
  }

  /** The nested-path branch of `scaleFGSublayer`, with the member's new
      centre `a`: the outer ring is scaled about `getCenter()` of the
      untouched path, then each hole about `getCenter()` of the path as the
      loop has left it. Every vertex keeps its offset from the centre it
      was scaled about, multiplied by `scale`, now measured from `a`. */
  function ScaleNestedPath(env: Env, path: Path, scale: real, a: LatLng): (r: Path)
    requires path.Rings?
    ensures r.Rings? && |r.outer| == |path.outer| && |r.holes| == |path.holes|
    ensures forall i, j :: 0 <= i < |path.outer| && 0 <= j < |path.outer| ==>
      Between(r.outer[j], r.outer[i]) == Stretch(Between(path.outer[j], path.outer[i]), scale)
    ensures forall i :: 0 <= i < |path.outer| ==>
      Between(a, r.outer[i]) == Stretch(Between(env.pathCenter(path), path.outer[i]), scale)
    ensures forall i :: 0 <= i < |path.outer| && path.outer[i] == env.pathCenter(path) ==> r.outer[i] == a
    ensures forall k :: 0 <= k < |path.holes| ==>
      var c := env.pathCenter(Rings(r.outer, r.holes[..k] + path.holes[k..]));
      |r.holes[k]| == |path.holes[k]|
      && forall i :: 0 <= i < |path.holes[k]| ==>
           Between(a, r.holes[k][i]) == Stretch(Between(c, path.holes[k][i]), scale)
    ensures path.holes == [] ==> r.holes == []
    ensures RingsBounds(r.holes).Some? == RingsBounds(path.holes).Some?
  {
    var scaledOuter := ScaleLatLngs(path.outer, env.pathCenter(path), scale, a);
    var scaledHoles := ScaleHoles(env, scaledOuter, path.holes, 0, scale, a);
    RingsBoundsByLengths(scaledHoles, path.holes);
    Rings(scaledOuter, scaledHoles)
  }

  /** `adjustFGSubBBox`: pad the member group's box by (scale - 1)/2 on
      every side and move it onto the member's new centre. The result is
      centred exactly there and is |scale| times as wide and as tall. */
  function AdjustFGSubBBox(subBounds: Box, scale: real, newSubCenter: LatLng): (r: Box)
    ensures Valid(r) && Center(r) == newSubCenter
    ensures Valid(subBounds) ==>
      Width(r) == Abs(scale) * Width(subBounds) && Height(r) == Abs(scale) * Height(subBounds)
    ensures Valid(subBounds) && Width(subBounds) != 0.0 ==> GetDeltaScale(subBounds, r) == Abs(scale)
  {
    var sbc := Center(subBounds);
    var scaledSubBounds := Pad(subBounds, (scale - 1.0) / 2.0);
    assert 1.0 + 2.0 * ((scale - 1.0) / 2.0) == scale;
    ShiftBox(scaledSubBounds, Between(sbc, newSubCenter))
  }

  /** The corner `setResizeFix` holds still for an index: the corner
      opposite the one the index names (nw = 0, ne = 1, se = 2, sw = 3).
      Any other index behaves like 3. */
  function PinnedCorner(b: Box, index: int): LatLng {
    if index == 0 then SouthEast(b)
    else if index == 1 then SouthWest(b)
    else if index == 2 then NorthWest(b)
    else NorthEast(b)
  }

  /** `setResizeFix`: with no fixed point, nothing happens; otherwise the
      whole group is moved rigidly by the offset that carries its pinned
      corner onto the point. */
  function SetResizeFix(env: Env, fg: Shape, fixedCornerPoint: Option<LatLng>, fixedCornerIndex: int): (r: Shape)
    requires fg.Group? && Solid(env, fg)
    ensures fixedCornerPoint.None? ==> r == fg
    ensures fixedCornerPoint.Some? ==>
      r == Translate(fg, Between(PinnedCorner(Bounds(env, fg).value, fixedCornerIndex), fixedCornerPoint.value))
    ensures r.Group? && r.owner == fg.owner && |r.children| == |fg.children|
    ensures Everywhere(env, OuterRingsFirst, fg) ==> Solid(env, r)
    ensures Everywhere(env, NoHoles, fg) ==> Everywhere(env, NoHoles, r)
  {
    if fixedCornerPoint.None? then fg
    else
      var p := fixedCornerPoint.value;
      var bbX := Bounds(env, fg).value;
      var diffLat := if fixedCornerIndex == 0 || fixedCornerIndex == 1 then p.lat - bbX.south else p.lat - bbX.north;
      var diffLng := if fixedCornerIndex == 1 || fixedCornerIndex == 2 then p.lng - bbX.west else p.lng - bbX.east;
      var xCenter := Center(bbX);
      var correctCenter := LatLng(xCenter.lat + diffLat, xCenter.lng + diffLng);
      MovedStaysSolid(env, fg, correctCenter);
      MoveFeatureGroup(env, fg, correctCenter)
  }

  /** `scaleFGSublayer`: place the member at its scaled centre and scale it
      there. Markers move; circles move and scale their radius; each ring
      of a nested path is scaled about the layer's `getCenter()` at that
      ring's turn; a flat polyline is left as it is, because the loop hands
      `scaleLatLngs` a single point whose `length` is undefined; a nested
      group is resized, with no corner pinned, to its own box scaled around
      its new centre. */
  function ScaleFGSublayer(env: Env, layer: Shape, scale: real, bbO: Box, bbN: Box): (r: Shape)
    requires Resizable(env, layer)
    ensures Solid(env, r)
    ensures Bounds(env, r).Some? == Bounds(env, layer).Some?
    ensures r.owner == layer.owner
    ensures r.Group? == layer.Group?
    ensures Everywhere(env, NoHoles, layer) ==> Everywhere(env, NoHoles, r)
    ensures Everywhere(env, OuterRingsFirst, layer) ==> Everywhere(env, OuterRingsFirst, r)
    ensures var a := FindScaledSubCenter(env, layer, scale, bbO, bbN);
      && (layer.Marker? ==> r.Marker? && r.pos == a)
      && (layer.Circle? ==> r.Circle? && r.center == a && r.radius == layer.radius * scale)
      && (layer.Poly? && layer.path.Flat? ==> r == layer)
      && (layer.Poly? && layer.path.Rings? ==> r == Poly(ScaleNestedPath(env, layer.path, scale, a), layer.owner))
      && (layer.Group? ==>
            r == ResizeFeatureGroup(env, layer, AdjustFGSubBBox(Bounds(env, layer).value, scale, a), None, 0))
      && ((layer.Marker? || layer.Circle?) && SubLayerCenter(env, layer) == Center(bbO) ==>
            SubLayerCenter(env, r) == Center(bbN))
    decreases layer, 2
  {
    var newSubCenter := FindScaledSubCenter(env, layer, scale, bbO, bbN);
    match layer
    case Marker(_, o) => Marker(newSubCenter, o)
    case Poly(Flat(_), _) => layer
    case Poly(Rings(_, _), o) =>
      Poly(ScaleNestedPath(env, layer.path, scale, newSubCenter), o)
    case Circle(_, radius, o) => Circle(newSubCenter, radius * scale, o)
    case Group(_, _) =>
      var subBounds := Bounds(env, layer).value;
      var scaledSubBounds := AdjustFGSubBBox(subBounds, scale, newSubCenter);
      ResizeFeatureGroup(env, layer, scaledSubBounds, None, 0)
  }

  /** `fg.eachLayer(scaleFGSublayer)`. */
  function ScaleLayers(env: Env, cs: seq<Shape>, scale: real, bbO: Box, bbN: Box): (r: seq<Shape>)
    requires EverywhereAll(env, GroupsHaveWidth, cs)
    ensures |r| == |cs|
    ensures forall i :: 0 <= i < |cs| ==>
      Everywhere(env, GroupsHaveWidth, cs[i]) && r[i] == ScaleFGSublayer(env, cs[i], scale, bbO, bbN)
    ensures EverywhereAll(env, GroupsHaveBounds, r)
    ensures BoundsAll(env, r).Some? == BoundsAll(env, cs).Some?
    ensures EverywhereAll(env, NoHoles, cs) ==> EverywhereAll(env, NoHoles, r)
    ensures EverywhereAll(env, OuterRingsFirst, cs) ==> EverywhereAll(env, OuterRingsFirst, r)
    decreases cs
  {
    if |cs| == 0 then []
    else
      var head := ScaleFGSublayer(env, cs[0], scale, bbO, bbN);
      var tail := ScaleLayers(env, cs[1..], scale, bbO, bbN);
      var r := [head] + tail;
      assert r[0] == head && r[1..] == tail;
      r
  }

  /** The first step of `resizeFeatureGroup`: every member scaled by the
      width ratio of the target box to the group's current box. The group
      keeps its tag and member count, and every nested group keeps a box. */
  function ScaledGroup(env: Env, fg: Shape, bbN: Box): (g: Shape)
    requires fg.Group? && Resizable(env, fg)
    ensures g.Group? && g.owner == fg.owner && |g.children| == |fg.children|
    ensures Solid(env, g)
    ensures var bbO := Bounds(env, fg).value;
      forall i :: 0 <= i < |fg.children| ==>
        Resizable(env, fg.children[i])
        && g.children[i] == ScaleFGSublayer(env, fg.children[i], GetDeltaScale(bbO, bbN), bbO, bbN)
    ensures Everywhere(env, NoHoles, fg) ==> Everywhere(env, NoHoles, g)
    ensures Everywhere(env, OuterRingsFirst, fg) ==> Everywhere(env, OuterRingsFirst, g)
    decreases fg, 0
  {
    var bbO := Bounds(env, fg).value;
    Group(ScaleLayers(env, fg.children, GetDeltaScale(bbO, bbN), bbO, bbN), fg.owner)
  }

  /** `resizeFeatureGroup`: scale every member, then pin the fixed corner by
      moving the scaled group rigidly. The tree keeps its shape and tags. */
  function ResizeFeatureGroup(env: Env, fg: Shape, bbN: Box, fixedCornerPoint: Option<LatLng>, fixedCornerIndex: int): (r: Shape)
    requires fg.Group? && Resizable(env, fg)
    ensures var scaled := ScaledGroup(env, fg, bbN);
      r == if fixedCornerPoint.None? then scaled
           else Translate(scaled, Between(PinnedCorner(Bounds(env, scaled).value, fixedCornerIndex), fixedCornerPoint.value))
    ensures r.Group? && r.owner == fg.owner && |r.children| == |fg.children|
    decreases fg, 1
  {
    SetResizeFix(env, ScaledGroup(env, fg, bbN), fixedCornerPoint, fixedCornerIndex)
  }

  /** A resized group stays movable when no corner is pinned or outer rings
      come first, and a hole-free group stays hole-free. */
  lemma ResizeKeepsBoxes(env: Env, fg: Shape, bbN: Box, fixedCornerPoint: Option<LatLng>, fixedCornerIndex: int)
    requires fg.Group? && Resizable(env, fg)
    ensures var r := ResizeFeatureGroup(env, fg, bbN, fixedCornerPoint, fixedCornerIndex);
      (fixedCornerPoint.None? || Everywhere(env, OuterRingsFirst, fg) ==> Solid(env, r))
      && (Everywhere(env, NoHoles, fg) ==> Everywhere(env, NoHoles, r))
  {
  }

  /** After `setResizeFix` with a point, the pinned corner of the group's
      box is exactly that point, and the box keeps its size. */
  lemma SetResizeFixPinsCorner(env: Env, fg: Shape, p: LatLng, index: int)
    requires fg.Group? && Solid(env, fg) && Everywhere(env, HolesInsideOuter, fg)
    ensures var r := SetResizeFix(env, fg, Some(p), index);
      Bounds(env, r).Some?
      && PinnedCorner(Bounds(env, r).value, index) == p
      && Width(Bounds(env, r).value) == Width(Bounds(env, fg).value)
      && Height(Bounds(env, r).value) == Height(Bounds(env, fg).value)
  {
    var b := Bounds(env, fg).value;
    TranslateBounds(env, fg, Between(PinnedCorner(b, index), p));
  }

  /** `resizeFeatureGroup` with a fixed point leaves the pinned corner of
      the group's new box exactly on that point. */
  lemma ResizePinsCorner(env: Env, fg: Shape, bbN: Box, p: LatLng, index: int)
    requires fg.Group? && Resizable(env, fg) && Everywhere(env, NoHoles, fg)
    ensures var r := ResizeFeatureGroup(env, fg, bbN, Some(p), index);
      Bounds(env, r).Some? && PinnedCorner(Bounds(env, r).value, index) == p
  {
    var scaled := ScaledGroup(env, fg, bbN);
    NoHolesAreInside(env, scaled);
    SetResizeFixPinsCorner(env, scaled, p, index);
  }

  /** With no corner pinned, a marker or circle member sitting on the
      group's old centre ends on the target's centre, and a circle's radius
      is multiplied by the width ratio of the target box to the old one. */
  lemma ResizeMovesCentredMember(env: Env, fg: Shape, bbN: Box, i: int)
    requires fg.Group? && Resizable(env, fg) && 0 <= i < |fg.children|
    requires fg.children[i].Marker? || fg.children[i].Circle?
    requires SubLayerCenter(env, fg.children[i]) == Center(Bounds(env, fg).value)
    ensures var r := ResizeFeatureGroup(env, fg, bbN, None, 0);
      var m := r.children[i];
      SubLayerCenter(env, m) == Center(bbN)
      && m.Marker? == fg.children[i].Marker? && m.owner == fg.children[i].owner
      && (m.Circle? ==> m.radius == fg.children[i].radius * GetDeltaScale(Bounds(env, fg).value, bbN))
  {
    var bbO := Bounds(env, fg).value;
    var scaled := ScaledGroup(env, fg, bbN);
    assert scaled.children[i] == ScaleFGSublayer(env, fg.children[i], GetDeltaScale(bbO, bbN), bbO, bbN);
  }
}

=== FILE: undo.dfy ===
/** `L.Edit.FeatureGroup.fgUndoExtension` (leaflet.draw.featuregroup.js):
    the undo manager's dispatch table for feature-group edits, keyed by the
    edit-type tag of the recorded event. The `Main` entries replay directly
    on the layer; the `Nested` entries replay through the layer's edit
    handler. */
module FGUndo {
  import opened Geometry
  import opened Layers
  import opened FGMove
  import opened FGResize
  import opened FGEditHandler

  /** `params.original`: the state an edit started from. */
  datatype Original = Original(
    originalBounds: Box,
    oppositeCorner: Option<LatLng>,
    oppositeCornerIndex: int,
    originalCenter: LatLng)

  /** The record the undo manager hands back: the layer, where the edit
      started, and where it ended. A move record uses only the centres, a
      resize record only the boxes and corners. */
  datatype Params = Params(
    layer: Shape,
    original: Original,
    newBounds: Box,
    oppositeCorner: Option<LatLng>,
    oppositeCornerIndex: int,
    newCenter: LatLng)

  /** Whether the entry recognised the type, and the layer afterwards. */
  datatype Replay = Replay(handled: bool, layer: Shape)

  /** Whether the table has an entry for the edit type. */
  predicate Known(editType: string) {
    editType == ResizeType || editType == MoveType
  }

  /** What a `Main` replay needs of the layer: a group with a box for a
      move, one whose boxes have width for a resize. Other types never read
      the record, so they need nothing. */
  predicate Replayable(env: Env, editType: string, layer: Shape) {
    (Known(editType) ==> layer.Group?)
    && (editType == MoveType ==> Solid(env, layer))
    && (editType == ResizeType ==> Resizable(env, layer))
  }

  /** What a `Nested` replay needs besides: a resize through `resizeEditFG`
      must leave the group a box to centre the move marker on. */
  predicate NestedReplayable(env: Env, editType: string, layer: Shape, bounds: Box, corner: Option<LatLng>, cornerIndex: int) {
    Replayable(env, editType, layer)
    && (editType == ResizeType ==> layer.Group? && Resizable(env, layer) && ResizedHasBox(env, layer, bounds, corner, cornerIndex))
  }

  /** One direction of the `Main` table: a resize to `bounds` about
      `corner`, or a move to `center`, as `editType` says. */
  function ReplayMain(env: Env, editType: string, layer: Shape, bounds: Box, corner: Option<LatLng>, cornerIndex: int, center: LatLng): (r: Replay)
    requires Replayable(env, editType, layer)
    ensures r.handled <==> Known(editType)
    ensures !r.handled ==> r.layer == layer
    ensures r.layer.owner == layer.owner
    ensures editType == ResizeType ==> r.layer == ResizeFeatureGroup(env, layer, bounds, corner, cornerIndex)
    ensures editType == MoveType ==> r.layer == MoveFeatureGroup(env, layer, center)
    ensures r.handled ==> r.layer.Group? && |r.layer.children| == |layer.children|
    ensures r.handled && Everywhere(env, OuterRingsFirst, layer) ==> Solid(env, r.layer)
    ensures r.handled && Everywhere(env, NoHoles, layer) ==> Everywhere(env, NoHoles, r.layer)
  {
    if editType == ResizeType then
      ResizeKeepsBoxes(env, layer, bounds, corner, cornerIndex);
      Replay(true, ResizeFeatureGroup(env, layer, bounds, corner, cornerIndex))
    else if editType == MoveType then
      MovedStaysSolid(env, layer, center);
      Replay(true, MoveFeatureGroup(env, layer, center))
    else
      Replay(false, layer)
  }

  /** `undoMain`: back to the recorded start. */
  function UndoMain(env: Env, editType: string, p: Params): (r: Replay)
    requires Replayable(env, editType, p.layer)
    ensures r.handled <==> Known(editType)
    ensures !r.handled ==> r.layer == p.layer
    ensures editType == MoveType ==> r.layer == MoveFeatureGroup(env, p.layer, p.original.originalCenter)
    ensures editType == ResizeType ==>
      r.layer == ResizeFeatureGroup(env, p.layer, p.original.originalBounds, p.original.oppositeCorner, p.original.oppositeCornerIndex)
    ensures r.handled && Everywhere(env, OuterRingsFirst, p.layer) ==> Solid(env, r.layer)
    ensures r.handled && Everywhere(env, NoHoles, p.layer) ==> Everywhere(env, NoHoles, r.layer)
  {
    ReplayMain(env, editType, p.layer, p.original.originalBounds, p.original.oppositeCorner,
      p.original.oppositeCornerIndex, p.original.originalCenter)
  }

  /** `redoMain`: forward to the recorded end. */
  function RedoMain(env: Env, editType: string, p: Params): (r: Replay)
    requires Replayable(env, editType, p.layer)
    ensures r.handled <==> Known(editType)
    ensures !r.handled ==> r.layer == p.layer
    ensures editType == MoveType ==> r.layer == MoveFeatureGroup(env, p.layer, p.newCenter)
    ensures editType == ResizeType ==>
      r.layer == ResizeFeatureGroup(env, p.layer, p.newBounds, p.oppositeCorner, p.oppositeCornerIndex)
    ensures r.handled && Everywhere(env, OuterRingsFirst, p.layer) ==> Solid(env, r.layer)
    ensures r.handled && Everywhere(env, NoHoles, p.layer) ==> Everywhere(env, NoHoles, r.layer)
  {
    ReplayMain(env, editType, p.layer, p.newBounds, p.oppositeCorner, p.oppositeCornerIndex, p.newCenter)
  }

  /** The outcome of a `Nested` entry: whether it recognised the type, the
      layer's edit handler afterwards, the undo manager's `eventBlock`
      counter, and the event the handler fired while replaying. */
  datatype NestedReplay = NestedReplay(handled: bool, handler: Handler, eventBlock: int, fired: Option<EditEvent>)

  /** One direction of the `Nested` table. A move goes through the handler's
      `_move` gate, after raising `eventBlock` by one so the undo manager
      ignores the EDITMOVE it fires; a resize goes through `resizeEditFG`
      and leaves `eventBlock` alone. */
  function ReplayNested(env: Env, editType: string, h: Handler, eventBlock: int,
                        bounds: Box, corner: Option<LatLng>, cornerIndex: int, center: LatLng): (r: NestedReplay)
    requires NestedReplayable(env, editType, h.shape, bounds, corner, cornerIndex)
    ensures r.handled <==> Known(editType)
    ensures r.eventBlock == if editType == MoveType then eventBlock + 1 else eventBlock
    ensures !r.handled ==> r.handler == h && r.fired.None?
    ensures editType == ResizeType ==>
      r.handler == ResizeEditFG(env, h, bounds, corner, cornerIndex) && r.fired.None? && MarkerCentred(env, r.handler)
    ensures editType == MoveType ==>
      r.handler == Move(env, h, center).handler && r.fired == Move(env, h, center).event
      && (r.fired.Some? <==> MoveAllowed(env, h, center))
    ensures r.handler.maxBounds == h.maxBounds
  {
    if editType == ResizeType then
      NestedReplay(true, ResizeEditFG(env, h, bounds, corner, cornerIndex), eventBlock, None)
    else if editType == MoveType then
      var o := Move(env, h, center);
      NestedReplay(true, o.handler, eventBlock + 1, o.event)
    else
      NestedReplay(false, h, eventBlock, None)
  }

  /** `undoNested`, on the handler of `p.layer`. */
  function UndoNested(env: Env, editType: string, p: Params, h: Handler, eventBlock: int): (r: NestedReplay)
    requires Known(editType) ==> h.shape == p.layer
    requires NestedReplayable(env, editType, h.shape, p.original.originalBounds, p.original.oppositeCorner, p.original.oppositeCornerIndex)
    ensures r.handled <==> Known(editType)
    ensures r.eventBlock == if editType == MoveType then eventBlock + 1 else eventBlock
    ensures !r.handled ==> r.handler == h
    ensures editType == MoveType ==>
      r.handler == Move(env, h, p.original.originalCenter).handler && r.fired == Move(env, h, p.original.originalCenter).event
    ensures editType == ResizeType ==>
      r.handler == ResizeEditFG(env, h, p.original.originalBounds, p.original.oppositeCorner, p.original.oppositeCornerIndex)
    ensures editType == ResizeType ==> r.handler.shape == UndoMain(env, editType, p).layer
    ensures editType == MoveType && h.maxBounds.None? ==>
      r.handler.shape == UndoMain(env, editType, p).layer && r.handler.moveMarker == p.original.originalCenter
  {
    ReplayNested(env, editType, h, eventBlock, p.original.originalBounds, p.original.oppositeCorner,
      p.original.oppositeCornerIndex, p.original.originalCenter)
  }

  /** `redoNested`, on the handler of `p.layer`. */
  function RedoNested(env: Env, editType: string, p: Params, h: Handler, eventBlock: int): (r: NestedReplay)
    requires Known(editType) ==> h.shape == p.layer
    requires NestedReplayable(env, editType, h.shape, p.newBounds, p.oppositeCorner, p.oppositeCornerIndex)
    ensures r.handled <==> Known(editType)
    ensures r.eventBlock == if editType == MoveType then eventBlock + 1 else eventBlock
    ensures !r.handled ==> r.handler == h
    ensures editType == MoveType ==>
      r.handler == Move(env, h, p.newCenter).handler && r.fired == Move(env, h, p.newCenter).event
    ensures editType == ResizeType ==>
      r.handler == ResizeEditFG(env, h, p.newBounds, p.oppositeCorner, p.oppositeCornerIndex)
    ensures editType == ResizeType ==> r.handler.shape == RedoMain(env, editType, p).layer
    ensures editType == MoveType && h.maxBounds.None? ==>
      r.handler.shape == RedoMain(env, editType, p).layer && r.handler.moveMarker == p.newCenter
  {
    ReplayNested(env, editType, h, eventBlock, p.newBounds, p.oppositeCorner, p.oppositeCornerIndex, p.newCenter)
  }

  /** A move record replays both ways: starting from a hole-free group
      centred on `originalCenter`, redo then undo gives the group back; and
      starting from one centred on `newCenter`, undo then redo does. */
  lemma MoveRoundTrip(env: Env, p: Params)
    requires p.layer.Group? && Solid(env, p.layer) && Everywhere(env, NoHoles, p.layer)
    ensures p.original.originalCenter == Center(Bounds(env, p.layer).value) ==>
      var redone := RedoMain(env, MoveType, p).layer;
      Solid(env, redone) && UndoMain(env, MoveType, p.(layer := redone)).layer == p.layer
    ensures p.newCenter == Center(Bounds(env, p.layer).value) ==>
      var undone := UndoMain(env, MoveType, p).layer;
      Solid(env, undone) && RedoMain(env, MoveType, p.(layer := undone)).layer == p.layer
  {
    NoHolesAreInside(env, p.layer);
    MoveBackRestores(env, p.layer, p.newCenter);
    MoveBackRestores(env, p.layer, p.original.originalCenter);
  }

  /** Undoing an accepted `_move` with the centre its EDITMOVE event
      recorded gives back the hole-free group the handler had. */
  lemma UndoAcceptedMove(env: Env, h: Handler, newCenter: LatLng, p: Params)
    requires h.shape.Group? && Solid(env, h.shape) && Everywhere(env, NoHoles, h.shape)
    requires var o := Move(env, h, newCenter);
      o.event.Some? && p.layer == o.event.value.layer && p.original.originalCenter == o.event.value.originalCenter
    ensures Solid(env, p.layer)
    ensures UndoMain(env, MoveType, p).layer == h.shape
  {
    NoHolesAreInside(env, h.shape);
    MoveBackRestores(env, h.shape, newCenter);
  }

  /** Undoing a resize of a hole-free group about a recorded corner leaves
      that corner of the group's box on the recorded point. */
  lemma UndoResizePinsCorner(env: Env, p: Params)
    requires p.layer.Group? && Resizable(env, p.layer) && Everywhere(env, NoHoles, p.layer)
    requires p.original.oppositeCorner.Some?
    ensures var r := UndoMain(env, ResizeType, p).layer;
      Bounds(env, r).Some?
      && PinnedCorner(Bounds(env, r).value, p.original.oppositeCornerIndex) == p.original.oppositeCorner.value
  {
    ResizePinsCorner(env, p.layer, p.original.originalBounds, p.original.oppositeCorner.value, p.original.oppositeCornerIndex);
  }
}
